=== FILE: README.md ===
# Order, product and category core of the e-commerce service

This project is a Dafny model of the service's order subsystem and its product and category stores. It covers:

- the order repository;
- the order use-case;
- the product and category repositories and use-cases.

Every store is an immutable value and every operation is a pure function over it. Operations that can fail return `Base.Result`, whose `Base.Error` cases carry the service's error messages (`Error.Message`).

- **Orders** (`OrderRepository`, `OrderUsecase`). The `orders` table is a map from id to row. The `order_items` table is a sequence of rows in primary-key order.
  - `SaveOrder` counts the orders created on the current day, soft-deleted ones included. It names the new order `ORD-<YYYYMMDD>-<count+1, zero-padded to at least 3 digits>`.
  - It refuses an id that is already stored, inserts the order, then walks the items. An item whose product already has a row in this order adds its quantity to that row. Any other item is inserted under the order's id.
  - The whole save is one transaction. A failing statement (the parameter `faults`) or a duplicate id yields an error and no new state.
  - The use-case's `Create` refuses an empty item list, then input the validator rejects, then an item whose price cannot be read. Otherwise it snapshots each product's price into its line, totals price × quantity, and saves.
  - The source reads the clock twice: once for the order's `created_at`, once in the save for the id's date. `CreateAsWritten` models that. `Create` uses one reading for both; see "Findings".
  - Reads hide soft-deleted orders. `Delete` stamps `deleted_at` and, through the ORM, `updated_at`.
- **Products** (`ProductRepository`, `ProductUsecase`). The table is a sequence of rows plus the next value of the id sequence.
  - `FindAll` hides deleted rows and pages with `LIMIT limit OFFSET (page-1)*limit` when `limit > 0`. Both paging fields are 64-bit, and the offset wraps around as 64-bit arithmetic does.
  - Reads join in the category name. The price lookup the order use-case relies on does not filter deleted rows.
  - The use-case checks the product-data rule (name, positive price, non-negative stock, image). Its update overwrites the six editable columns and `updated_at`. Its delete is guarded.
- **Categories** (`CategoryRepository`, `CategoryUsecase`). The table has the same shape as the product table. A lookup miss is "no category", not an error.

Shared pieces:

- `Base` holds `Option`, `Result`, the error set, the clock value `Instant`, the generic `FirstIndex` and `Filter`, and 64-bit wrap-around (`Int64`, `Wrap64`).
- `Decimal` holds the zero-padded decimal formatting used by order ids, with its parser.
- `Model` holds the entities.

## Inputs that replace I/O

These become parameters:

- **The clock.** `now: Instant` has a `day` stamp (YYYYMMDD as a number below 10^8) and a within-day part. `DATE(created_at)` is `createdAt.day`.
- **The validator** (`helper.Validator.Struct`). It is the predicate parameter `validate`.
- **Database statement failures inside `SaveOrder`.** They are the set `faults`. It names which of `Begin`, `CountToday`, `InsertOrder`, `SaveItem(j)` and `Commit` fail.
- **The product table** for the order use-case's price lookups.

## Model

| member | source | states |
|---|---|---|
| Base.FirstIndex | internal/repository/order_repository.go:87 | The first position whose element satisfies the condition (what `First` returns), or none exactly when no element does |
| Base.Filter | internal/repository/category_repository.go:20 | Keeps exactly the elements satisfying the condition, and no more elements than the input |
| Base.FilterCounts | internal/repository/category_repository.go:20 | Every element satisfying the condition is kept as many times as it occurs; every other element is dropped entirely |
| Base.FilterAppend | internal/repository/category_repository.go:20 | Filtering keeps the input's order: a row added at the end is kept at the end, if it matches |
| Base.Wrap64 | internal/repository/product_repository.go:31 | The 64-bit two's-complement value of a number: congruent to it modulo 2^64, and the number itself when it fits |
| Decimal.PadLeft | internal/repository/order_repository.go:72 | `%03d`-style padding yields only digits, of length the larger of the width and the number's shortest spelling |
| Decimal.PadLeftRoundTrip | internal/repository/order_repository.go:72 | Reading a zero-padded number back gives the number |
| Decimal.DigitsFit | internal/repository/order_repository.go:63 | A number below 10^k has at most k digits, so an 8-digit date pads to exactly 8 characters |
| OrderRepository.OrderIdRoundTrip | internal/repository/order_repository.go:63-72 | An order id `ORD-<date>-<n padded to 3>` parses back to its date and sequence number |
| OrderRepository.OrderIdInjective | internal/repository/order_repository.go:72 | Two ids are equal only for the same date and the same sequence number |
| OrderRepository.CountOnDay | internal/repository/order_repository.go:65-68 | The number of orders created on the day, soft-deleted ones included; `CountAfterInsert` and `CountAfterTouch` pin down how it moves |
| OrderRepository.NextOrderId | internal/repository/order_repository.go:63-72 | The id `ORD-<day>-<count + 1>`; `OrderIdRoundTrip` reads the day and number back and `ConsecutiveSaves` shows consecutive numbering |
| OrderRepository.CountAfterInsert | internal/repository/order_repository.go:65-68 | Inserting an order adds one to the count of its creation day and to no other day |
| OrderRepository.CountAfterTouch | internal/repository/order_repository.go:65-68 | Changing an order without changing its creation time keeps every day's count |
| OrderRepository.FindItem | internal/repository/order_repository.go:87 | The first item row of the given order and product (no earlier row matches), or none exactly when there is no such row |
| OrderRepository.SaveItems | internal/repository/order_repository.go:85-104 | The item loop succeeds exactly when no item write fails, and otherwise reports a failing write. On success, earlier rows keep their order, product and price, other orders' rows are untouched, and new rows belong to the order |
| OrderRepository.Qty | internal/repository/order_repository.go:87-88 | With no row for an order and product the quantity is zero |
| OrderRepository.QtyAppend | internal/repository/order_repository.go:95-101 | Inserting an item row adds its quantity to its own order and product only |
| OrderRepository.QtyUpdate | internal/repository/order_repository.go:88-90 | Rewriting one row changes the quantities by exactly that row's old and new contribution |
| OrderRepository.Upsert | internal/repository/order_repository.go:86-103 | One pass of the item loop; `UpsertShape`, `UpsertQty`, `UpsertKeepsOneRow` and `UpsertKeepsOtherRows` state what it does |
| OrderRepository.UpsertShape | internal/repository/order_repository.go:86-103 | With a row of the same order and product present, nothing is appended; otherwise exactly one row of that order and product is appended, with the item's quantity and price, and the earlier rows stay as they were |
| OrderRepository.UpsertQty | internal/repository/order_repository.go:86-103 | One pass of the loop adds the item's quantity to its own order and product and to no other pair |
| OrderRepository.UpsertKeepsOneRow | internal/repository/order_repository.go:86-103 | One pass keeps at most one row per order and product. The row exists afterwards exactly when it did before or the item is for that product, and it keeps the first price |
| OrderRepository.UpsertKeepsOtherRows | internal/repository/order_repository.go:86-103 | One pass of the loop keeps every earlier row's order, product and price, leaves other orders' rows alone, and only appends rows of this order |
| OrderRepository.SaveItemsMerge | internal/repository/order_repository.go:85-104 | Items repeating a product collapse into one row whose quantity is their sum and whose price is the first one's |
| OrderRepository.SaveItemsQtyElsewhere | internal/repository/order_repository.go:85-104 | The item loop leaves every other order's quantities unchanged |
| OrderRepository.SaveOrder | internal/repository/order_repository.go:51-111 | Success exactly when no statement fails and the day's next id is free. "Duplicate order" is returned exactly when begin and count succeed and the id is taken. A failed statement's error names a statement that failed. Every failure leaves no new state. On success exactly one order row is added under the new id, all earlier orders are unchanged, and earlier item rows keep their place |
| OrderRepository.Preload | internal/repository/order_repository.go:37 | The stored order with its item list holding exactly the item rows of that order |
| OrderRepository.FindById | internal/repository/order_repository.go:34-49 | Finds the order exactly when it is stored and not deleted, with its items loaded; "order not found" otherwise |
| OrderRepository.FindAll | internal/repository/order_repository.go:21-32 | Exactly the user's non-deleted orders with their items; no match is an empty set, not an error |
| OrderRepository.Delete | internal/repository/order_repository.go:113-124 | Stamps `deleted_at` and `updated_at` on the order whatever its state, keeps its creation time, changes no other order and no item, and succeeds when nothing matches |
| OrderRepository.NoDuplicateInSequence | internal/repository/order_repository.go:74-78 | In a store whose ids follow the numbering rule (each id names its order's creation day), the duplicate check never fires |
| OrderRepository.InsertKeepsNumbering | internal/repository/order_repository.go:63-83 | Adding an order of the day under the day's next id keeps every stored id spelling its creation day and a number within that day's count |
| OrderRepository.SaveOrderKeepsInvariants | internal/repository/order_repository.go:63-111 | A save of an order created today keeps the numbering rule and keeps every item tied to a stored order |
| OrderRepository.ConsecutiveSaves | internal/repository/order_repository.go:63-72 | Two saves in a row on one day get consecutive sequence numbers |
| OrderRepository.DeleteKeepsInvariants | internal/repository/order_repository.go:113-124 | Soft deletion keeps the numbering rule, since deleted orders still count |
| OrderRepository.SaveOrderMergesByProduct | internal/repository/order_repository.go:85-104 | After a save, the new order has one row per product it mentions. That row's quantity is the sum over the order's items and its price the first item's |
| OrderRepository.SaveOrderLeavesOtherOrders | internal/repository/order_repository.go:80-110 | A save changes no other order's item quantities |
| OrderUsecase.FindAll | internal/usecase/order_usecase.go:25-42 | User 0 is "invalid user ID". Any other user gets exactly their non-deleted orders |
| OrderUsecase.FindById | internal/usecase/order_usecase.go:44-61 | The empty id is "invalid order ID". Otherwise the answer is the store's lookup: the order is found exactly when stored and not deleted, with exactly its item rows loaded, and the error is "order not found" |
| OrderUsecase.UnitPrice | internal/usecase/order_usecase.go:142-149 | The price of a product row with the id |
| OrderUsecase.NewItems | internal/usecase/order_usecase.go:94-100 | The built lines match the input items one for one and in order, with the same product and quantity and the looked-up price |
| OrderUsecase.PriceItems | internal/usecase/order_usecase.go:85-101 | Succeeds exactly when every item has a price, and otherwise returns the first failed lookup's error. The total grows by the sum of price × quantity and the lines are appended in order |
| OrderUsecase.BuildOrder | internal/usecase/order_usecase.go:78-101 | The order handed to the save has the input user, the total of price × quantity over the items, the priced lines, and no deletion |
| OrderUsecase.CreateAsWritten | internal/usecase/order_usecase.go:63-109 | Checks in this order: empty items gives "order_items cannot be empty", then the validator's error, then the missing price's error, each before any save. "Duplicate order" exactly when all checks pass, the save's first statements succeed and the id for the second reading's day is taken. Once the checks pass, the priced order is handed to the save, so the create succeeds exactly when no statement fails and the id is free, and a failed statement's error names it. On success the new order, numbered by the second reading's day, carries the input user, the total and the first reading as creation time, and no other order changes |
| OrderUsecase.CreateAcrossMidnightBlocksNext | internal/usecase/order_usecase.go:81 | When the two clock readings fall on different days, the next order saved on the second day gets the same id and is refused as a duplicate |
| OrderUsecase.Create | internal/usecase/order_usecase.go:63-109 | The same checks in the same order, each before any save. It succeeds exactly when the checks pass, no statement fails and the day's next id is free. With one clock reading, on success the stored order carries the input user, the total, the id of its own creation day and that reading as creation time |
| OrderUsecase.CreateKeepsInvariants | internal/usecase/order_usecase.go:63-109 | With one clock reading, a create keeps the numbering rule and keeps every item tied to a stored order |
| OrderUsecase.CreateNeverDuplicate | internal/repository/order_repository.go:74-78 | With one clock reading, a create on a store that follows the numbering rule never answers "duplicate order" |
| OrderUsecase.NewItemsSummary | internal/usecase/order_usecase.go:85-101 | The built lines mention exactly the input's products, sum to the input quantities per product, and carry the product's price |
| OrderUsecase.CreateStoresOneLinePerProduct | internal/usecase/order_usecase.go:63-109 | A created order has one row per mentioned product, holding the summed input quantity at the product's price at creation |
| OrderUsecase.CreateThenFindById | internal/usecase/order_usecase.go:44-109 | A created order is found by its id with its user, total and items |
| OrderUsecase.Delete | internal/usecase/order_usecase.go:111-140 | Deletes exactly a stored non-deleted order; otherwise "order not found" and no write. The "already deleted" answer never occurs |
| OrderUsecase.DeleteTwice | internal/usecase/order_usecase.go:116-130 | A second delete of the same order is "order not found" |
| OrderUsecase.DeleteHides | internal/usecase/order_usecase.go:25-61 | A deleted order is found by neither read, of the store or of the use-case |
| OrderUsecase.CreateThenListed | internal/usecase/order_usecase.go:25-42 | A created order is listed among its user's orders; user 0 is refused |
| ProductRepository.Joined | internal/repository/product_repository.go:26-27 | The join changes only the category name of a product |
| ProductRepository.LiveRows | internal/repository/product_repository.go:28 | Exactly the products not soft-deleted |
| ProductRepository.Offset | internal/repository/product_repository.go:31 | `(page - 1) * limit` in 64-bit arithmetic; when the page is at least 1 and the product fits, exactly that product. `OverflowingPageShowsFirstPage` shows the wrap |
| ProductRepository.Window | internal/repository/product_repository.go:30-33 | The page is the slice that starts at the clamped offset and holds at most `limit` rows |
| ProductRepository.FindAll | internal/repository/product_repository.go:21-41 | Never returns a deleted product. With `limit > 0` it returns at most `limit` rows starting at the 64-bit `(page-1)*limit`; otherwise all non-deleted products |
| ProductRepository.EveryLiveProductOnItsPage | internal/repository/product_repository.go:30-33 | With `limit > 0`, the product at position j (below 2^63 - 1) is entry `j % limit` of page `j / limit + 1` |
| ProductRepository.OverflowingPageShowsFirstPage | internal/repository/product_repository.go:30-33 | With limit 2, page 2^62 + 1 wraps the offset to -2^63, so the listing shows the first page rather than an empty one |
| ProductRepository.FindById | internal/repository/product_repository.go:43-60 | Finds a product exactly when a non-deleted row has the id; "product not found" otherwise |
| ProductRepository.Create | internal/repository/product_repository.go:62-70 | Appends the row without its category name under the sequence's next id (or its own), and refuses an id already present. Ids stay unique |
| ProductRepository.Update | internal/repository/product_repository.go:72-83 | Only the non-deleted row(s) with the id change, taking the written columns; every other row is unchanged |
| ProductRepository.Delete | internal/repository/product_repository.go:85-94 | Stamps `deleted_at` and `updated_at` on the rows with the id whatever their state; other rows are unchanged |
| ProductRepository.GetPriceByID | internal/repository/product_repository.go:96-101 | Returns the price of a row with the id, deleted or not; a missing id is an error |
| ProductRepository.PriceSurvivesDelete | internal/repository/product_repository.go:85-101 | Soft deletion changes no price lookup |
| ProductRepository.DeleteHidesFromFind | internal/repository/product_repository.go:43-94 | After a delete, the lookup of the id is "product not found" |
| ProductRepository.DeleteHidesFromFindAll | internal/repository/product_repository.go:21-94 | After a delete, no page of the listing holds the product |
| ProductRepository.UpdateOfMissingIsNoOp | internal/repository/product_repository.go:72-83 | Updating a missing or deleted product changes nothing |
| ProductRepository.UpdateThenFind | internal/repository/product_repository.go:43-83 | After an update of a live product, the lookup shows the written columns |
| ProductUsecase.Create | internal/usecase/product_usecase.go:57-89 | The validator's error, then "invalid product data" exactly when the name is empty, price ≤ 0, stock < 0 or the image is empty, each without writing. On success one row with the six input fields is appended and the product is returned with id 0 |
| ProductUsecase.CreateThenFind | internal/usecase/product_usecase.go:57-89 | A created product is found under its new id with the input's fields |
| ProductUsecase.Update | internal/usecase/product_usecase.go:91-122 | The validator's error or "product not found" without writing. Otherwise the store is the repository's update with the edited product. Every live row with the id then holds the six input columns and the new `updated_at`, keeps its id and category name, and (ids being unique) its creation time; rows with other ids are unchanged |
| ProductUsecase.UpdateThenFind | internal/usecase/product_usecase.go:91-122 | After an update the lookup shows the new columns |
| ProductUsecase.Delete | internal/usecase/product_usecase.go:124-153 | Deletes exactly when a non-deleted product has the id, through the store's delete of that id; otherwise "product not found" with no write. The "already deleted" answer never occurs |
| ProductUsecase.DeleteTwice | internal/usecase/product_usecase.go:129-143 | A second delete of the same product is "product not found" |
| ProductUsecase.DeletedProductStillPriced | internal/repository/product_repository.go:96-101 | A deleted product is hidden from the lookup but still has a price for new orders |
| CategoryRepository.FindAll | internal/repository/category_repository.go:18-25 | Exactly the categories not soft-deleted |
| CategoryRepository.FindById | internal/repository/category_repository.go:27-37 | A non-deleted category with the id, or "no category" (not an error) exactly when there is none |
| CategoryRepository.Create | internal/repository/category_repository.go:39-46 | Appends the category under the sequence's next id (or its own), leaving the others. An id already present is refused. Ids stay unique |
| CategoryRepository.Update | internal/repository/category_repository.go:48-57 | Only the non-deleted row(s) with the id change; every other row is unchanged |
| CategoryRepository.Delete | internal/repository/category_repository.go:59-63 | Stamps `deleted_at` and `updated_at` on the rows with the id whatever their state; other rows are unchanged |
| CategoryRepository.DeleteHides | internal/repository/category_repository.go:18-63 | After a delete the category is found by neither read |
| CategoryRepository.UpdateThenFind | internal/repository/category_repository.go:27-57 | After an update of a live category, the lookup shows the new name |
| CategoryRepository.JoinedName | internal/repository/product_repository.go:26-27 | The name of the category row with the id, deleted or not, and empty when there is none |
| CategoryUsecase.Create | internal/usecase/category_usecase.go:49-70 | The validator's error without writing. Otherwise one row is appended whose only set column is the input name |
| CategoryUsecase.CreateThenFind | internal/usecase/category_usecase.go:49-70 | A created category is found under its new id with the input name |
| CategoryUsecase.Update | internal/usecase/category_usecase.go:72-99 | The validator's error without writing. Otherwise the category's name and `updated_at` change, its creation time stays, and rows with other ids are unchanged |
| CategoryUsecase.UpdatedRowFound | internal/repository/category_repository.go:48-57 | After an update the lookup finds exactly the overwritten row |
| CategoryUsecase.Delete | internal/usecase/category_usecase.go:101-130 | Deletes exactly when a non-deleted category has the id, through the store's delete of that id; otherwise "category not found". The "already deleted" answer never occurs |
| CategoryUsecase.DeleteTwice | internal/usecase/category_usecase.go:106-120 | A second delete of the same category is "category not found" |

## Left out

- HTTP and gRPC handlers, server wiring and database connection code. They are transport and plumbing.
- The use-cases' `FindAll`/`FindById` for products and categories. They forward to the store unchanged, and the store functions model them.
- The gRPC handler's `MarkOrderPaid` sets `order.Status` and calls the use-case's `Update`, and `ListOrders` calls `ListByUserID` (internal/delivery/grpc/order_service.go:47-67). Neither the order use-case nor the order model defines `Status`, `Update` or `ListByUserID`, so there is nothing to model.
- `GetPriceByID` is not declared on the product repository interface, so the order use-case's call to it would not compile as written. It is modelled as the store function it calls.
- The server passes three arguments to the two-argument order use-case constructor. Not modelled.
- Concurrency. Two transactions can count the same day at once and compute the same id; the model is one sequential store. `OrderRepository.NoDuplicateInSequence` shows that, without concurrency, the duplicate check fires only in a store that breaks the numbering rule. The two clock readings of the source produce such a store (see "Findings").
- Floating point. Order totals and item prices are `float64` in the source; they are exact integers here, as product prices are `int64`.
- Wall-clock time and the local-versus-database date of `DATE(created_at)`. The day is the `day` field of the `now` parameter.
- Logging.
- The validator's rules. Validation is the uninterpreted predicate `validate`.
- ORM behaviour the code does not spell out:
  - Saving an order through `Create(&order)` could also insert its `OrderItems` as an association. The model follows the explicit item loop only.
  - `Scan` of a missing product's price is modelled as a "record not found" error.
  - A zero `created_at`/`updated_at` is not replaced with the insertion time, so a category created from its name keeps zero timestamps.
  - `Updates` with a struct is modelled as writing every column, not only the non-zero ones. The two agree whenever the written fields are non-zero.
  - A non-positive offset is treated as no offset.
- Database errors other than the ones the source names are modelled only in `SaveOrder`. The product and category statements are taken to succeed, and their use-cases' error-propagation branches are therefore not represented.
- Row order without `ORDER BY` is unspecified in SQL. The product and category listings return rows in insertion order; the order listing is a set.
- Products and categories are sequences of rows with an id counter, not maps, because paging needs a row order.
- CategoryUsecase.Update: requires the category to exist whenever the validator accepts the input. The source dereferences the lookup's result without a nil check, so a missing category crashes instead of returning an error.
- OrderRepository.Upsert: the `int` quantity sum is unbounded here. The source's 64-bit `Quantity += item.Quantity` would wrap for sums beyond 2^63 - 1.
- ProductRepository.Create: a failed insert leaves the id sequence as it was. In PostgreSQL the sequence value is consumed even when the insert fails.
- CategoryRepository.Create: as for products, a failed insert does not consume a sequence value here.
- OrderRepository.SaveItems: an inserted item's primary key is its row position plus one, as from an id sequence that never skips a value.

## Findings

| source | as written | input that shows it | evidently intended | confidence | as-written member | corrected member |
|---|---|---|---|---|---|---|
| internal/usecase/order_usecase.go:81 | The order's `created_at` comes from one `time.Now()`, and the id's date from another in the save (internal/repository/order_repository.go:63) | An order whose creation time is on day D but whose save runs on day D+1 is named for D+1 without counting towards D+1. The next order saved on D+1 gets the same id and is refused with "duplicate order detected in database" | One clock reading for both, so every id names its order's creation day and a sequential save never clashes | medium, not executed | OrderUsecase.CreateAsWritten, OrderUsecase.CreateAcrossMidnightBlocksNext | OrderUsecase.Create, OrderUsecase.CreateNeverDuplicate |

=== FILE: base.dfy ===
/** Shared vocabulary of the model: optional values, results, errors, clock
    readings, and two sequence helpers (first match, filter) that every store
    uses for its WHERE clauses. */
module Base {

  /** A value that may be absent; stands for a Go pointer that may be nil. */
  datatype Option<+T> = None | Some(value: T)

  /** A clock reading. `day` is the calendar day as the number YYYYMMDD (the
      value `time.Now().Format("20060102")` spells and `DATE(created_at)`
      compares); `nanos` is the time within that day. */
  type DayStamp = d: nat | d < 100_000_000

  datatype Instant = Instant(day: DayStamp, nanos: nat)

  /** Go's zero `time.Time`: 0001-01-01 00:00:00. */
  const ZeroTime: Instant := Instant(00010101, 0)

  /** A database statement of one `SaveOrder` call, used to say which of them fail. */
  datatype Stmt =
    | Begin
    | CountToday
    | InsertOrder
    | SaveItem(index: nat)
    | Commit

  /** The errors the modelled code returns. */
  datatype Error =
    | InvalidUserId
    | InvalidOrderId
    | EmptyOrderItems
    | OrderNotFound
    | OrderAlreadyDeleted
    | DuplicateOrder
    | ProductNotFound
    | ProductAlreadyDeleted
    | InvalidProductData
    | CategoryNotFound
    | CategoryAlreadyDeleted
    | ValidationFailed
    | RecordNotFound
    | DuplicateKey
    | StatementFailed(stmt: Stmt)
  {
    /** The error text. The source spells the first eleven itself with
        `errors.New`; the last four stand for errors the validator or the
        database returns, whose exact wording is theirs. */
    function Message(): string
    {
      match this
      case InvalidUserId => "invalid user ID"
      case InvalidOrderId => "invalid order ID"
      case EmptyOrderItems => "order_items cannot be empty"
      case OrderNotFound => "order not found"
      case OrderAlreadyDeleted => "order already deleted"
      case DuplicateOrder => "duplicate order detected in database"
      case ProductNotFound => "product not found"
      case ProductAlreadyDeleted => "product already deleted"
      case InvalidProductData => "invalid product data"
      case CategoryNotFound => "category not found"
      case CategoryAlreadyDeleted => "category already deleted"
      case ValidationFailed => "validation failed"
      case RecordNotFound => "record not found"
      case DuplicateKey => "duplicate key value violates unique constraint"
      case StatementFailed(_) => "statement failed"
    }
  }

  /** Either a value or the error the operation returned. */
  datatype Result<+T> = Success(value: T) | Failure(error: Error) {

    predicate IsFailure() {
      Failure?
    }

    function PropagateFailure<U>(): Result<U>
      requires Failure?
    {
      Failure(error)
    }

    function Extract(): T
      requires Success?
    {
      value
    }
  }

  /** Index of the first element satisfying `p`: what `First` returns for a
      WHERE clause over rows kept in primary-key order. */
  function FirstIndex<T>(xs: seq<T>, p: T -> bool): (r: Option<nat>)
    ensures r.Some? ==> r.value < |xs| && p(xs[r.value])
    ensures r.Some? ==> forall j :: 0 <= j < r.value ==> !p(xs[j])
    ensures r.None? <==> forall j :: 0 <= j < |xs| ==> !p(xs[j])
  {
    if xs == [] then None
    else if p(xs[0]) then Some(0)
    else match FirstIndex(xs[1..], p)
      case None => None
      case Some(i) => Some(i + 1)
  }

  /** `r` holds every element of `xs` satisfying `p` exactly as often as
      `xs` does, and nothing else. */
  ghost predicate KeepsMatchCounts<T(!new)>(xs: seq<T>, r: seq<T>, p: T -> bool) {
    forall x :: multiset(r)[x] == if p(x) then multiset(xs)[x] else 0
  }

  /** The elements satisfying `p`, in their original order: what `Find`
      returns for a WHERE clause. Each matching row appears as often as it
      is stored (`FilterCounts`), and `FilterAppend` fixes the order. */
  function Filter<T(!new)>(xs: seq<T>, p: T -> bool): (r: seq<T>)
    ensures |r| <= |xs|
    ensures forall x :: x in r <==> x in xs && p(x)
  {
    if xs == [] then []
    else (if p(xs[0]) then [xs[0]] else []) + Filter(xs[1..], p)
  }

  /** Filtering keeps each matching element exactly as often as it occurs:
      no row is returned twice and none is lost. */
  lemma {:induction false} FilterCounts<T(!new)>(xs: seq<T>, p: T -> bool)
    ensures KeepsMatchCounts(xs, Filter(xs, p), p)
  {
    if xs != [] {
      FilterCounts(xs[1..], p);
      assert xs == [xs[0]] + xs[1..];
      assert multiset(xs) == multiset([xs[0]]) + multiset(xs[1..]);
    }
  }

  /** Filtering a sequence with one more element at the end: the filtered
      prefix, followed by that element when it matches. With `Filter([], p) == []`
      this determines the result, order included. */
  lemma {:induction false} FilterAppend<T(!new)>(xs: seq<T>, x: T, p: T -> bool)
    ensures Filter(xs + [x], p) == Filter(xs, p) + (if p(x) then [x] else [])
  {
    if xs == [] {
      assert [x][1..] == [];
    } else {
      var ys := xs + [x];
      var head: seq<T> := if p(xs[0]) then [xs[0]] else [];
      var tail: seq<T> := if p(x) then [x] else [];
      assert ys[0] == xs[0] && ys[1..] == xs[1..] + [x];
      assert Filter(ys, p) == head + Filter(xs[1..] + [x], p);
      FilterAppend(xs[1..], x, p);
      assert Filter(ys, p) == head + (Filter(xs[1..], p) + tail);
      assert Filter(xs, p) == head + Filter(xs[1..], p);
    }
  }

  /** The values of Go's `int64`. */
  type Int64 = x: int | -0x8000_0000_0000_0000 <= x < 0x8000_0000_0000_0000

  /** Two's-complement wrap-around of an `int64` result: the value in the
      `int64` range congruent to `x` modulo 2^64. */
  function Wrap64(x: int): (r: Int64)
    ensures (r - x) % 0x1_0000_0000_0000_0000 == 0
    ensures -0x8000_0000_0000_0000 <= x < 0x8000_0000_0000_0000 ==> r == x
  {
    (x + 0x8000_0000_0000_0000) % 0x1_0000_0000_0000_0000 - 0x8000_0000_0000_0000
  }
}

=== FILE: category_repository.dfy ===
/** The category store: the `categories` table with soft deletion. A lookup
    that finds nothing answers "no category" rather than an error. */
module CategoryRepository {
  import opened Base
  import opened Model

  /** Rows in insertion order, and the value the id sequence hands out next. */
  datatype CategoryStore = CategoryStore(rows: seq<Category>, nextId: int)

  predicate UniqueIds(rows: seq<Category>) {
    forall i, j :: 0 <= i < |rows| && 0 <= j < |rows| && i != j ==> rows[i].id != rows[j].id
  }

  function LiveWithId(id: int): Category -> bool {
    (c: Category) => c.id == id && c.Live()
  }

  /** `WHERE deleted_at IS NULL`: exactly the categories not soft-deleted. */
  function FindAll(s: CategoryStore): (r: seq<Category>)
    ensures forall c :: c in r <==> c in s.rows && c.Live()
  {
    Filter(s.rows, (c: Category) => c.Live())
  }

  /** `WHERE id = ? AND deleted_at IS NULL`; a miss is `None`, not an error. */
  function FindById(s: CategoryStore, id: int): (r: Option<Category>)
    ensures r.None? <==> forall i :: 0 <= i < |s.rows| ==> !(s.rows[i].id == id && s.rows[i].Live())
    ensures r.Some? ==> r.value in s.rows && r.value.id == id && r.value.Live()
  {
    match FirstIndex(s.rows, LiveWithId(id))
    case Some(i) => Some(s.rows[i])
    case None => None
  }

  /** Inserts a row: a zero id takes the next value of the id sequence, any
      other id is used as given; an id already present violates the primary key. */
  function Create(s: CategoryStore, c: Category): (r: Result<CategoryStore>)
    ensures var id := if c.id == 0 then s.nextId else c.id;
            && (r.Success? <==> forall i :: 0 <= i < |s.rows| ==> s.rows[i].id != id)
            && (r.Failure? ==> r.error == DuplicateKey)
            && (r.Success? ==> r.value.rows == s.rows + [c.(id := id)])
    ensures UniqueIds(s.rows) && r.Success? ==> UniqueIds(r.value.rows)
  {
    var id := if c.id == 0 then s.nextId else c.id;
    if exists i :: 0 <= i < |s.rows| && s.rows[i].id == id then Failure(DuplicateKey)
    else Success(CategoryStore(s.rows + [c.(id := id)], if c.id == 0 then s.nextId + 1 else s.nextId))
  }

  /** The columns `Updates` writes from `c` into a row. */
  function Overwrite(row: Category, c: Category): Category {
    row.(name := c.name, createdAt := c.createdAt, updatedAt := c.updatedAt)
  }

  /** `UPDATE ... WHERE id = ? AND deleted_at IS NULL`: only the live row(s)
      with `c`'s id change; every other row is left as it was. */
  function Update(s: CategoryStore, c: Category): (r: CategoryStore)
    ensures r.nextId == s.nextId && |r.rows| == |s.rows|
    ensures forall i :: 0 <= i < |s.rows| && !(s.rows[i].id == c.id && s.rows[i].Live()) ==> r.rows[i] == s.rows[i]
    ensures forall i :: 0 <= i < |s.rows| && s.rows[i].id == c.id && s.rows[i].Live() ==>
              r.rows[i].name == c.name && r.rows[i].updatedAt == c.updatedAt
              && r.rows[i].id == c.id && r.rows[i].Live()
  {
    s.(rows := seq(|s.rows|, i requires 0 <= i < |s.rows| =>
                     if s.rows[i].id == c.id && s.rows[i].Live() then Overwrite(s.rows[i], c) else s.rows[i]))
  }

  /** `UPDATE ... SET deleted_at = NOW() WHERE id = ?`, which the ORM extends
      with `updated_at = now`, whatever the rows' state. */
  function Delete(s: CategoryStore, id: int, now: Instant): (r: CategoryStore)
    ensures r.nextId == s.nextId && |r.rows| == |s.rows|
    ensures forall i :: 0 <= i < |s.rows| && s.rows[i].id != id ==> r.rows[i] == s.rows[i]
    ensures forall i :: 0 <= i < |s.rows| && s.rows[i].id == id ==>
              r.rows[i] == s.rows[i].(deletedAt := Some(now), updatedAt := now)
  {
    s.(rows := seq(|s.rows|, i requires 0 <= i < |s.rows| =>
                     if s.rows[i].id == id then s.rows[i].(deletedAt := Some(now), updatedAt := now) else s.rows[i]))
  }

  /** After a delete the category is gone from both reads. */
  lemma DeleteHides(s: CategoryStore, id: int, now: Instant)
    ensures FindById(Delete(s, id, now), id).None?
    ensures forall c :: c in FindAll(Delete(s, id, now)) ==> c.id != id
  {
  }

  /** After an update of a live category, the lookup shows the new name. */
  lemma UpdateThenFind(s: CategoryStore, c: Category)
    requires FindById(s, c.id).Some?
    ensures FindById(Update(s, c), c.id).Some?
    ensures FindById(Update(s, c), c.id).value.name == c.name
  {
  }

  /** The name `LEFT JOIN categories ON categories.id = products.category_id`
      brings into a product: that of the row with the id, deleted or not,
      and the empty string when there is none. */
  function JoinedName(s: CategoryStore, categoryId: int): (r: string)
    ensures (exists i :: 0 <= i < |s.rows| && s.rows[i].id == categoryId) ==>
              exists i :: 0 <= i < |s.rows| && s.rows[i].id == categoryId && s.rows[i].name == r
    ensures (forall i :: 0 <= i < |s.rows| ==> s.rows[i].id != categoryId) ==> r == ""
  {
    match FirstIndex(s.rows, (c: Category) => c.id == categoryId)
    case Some(i) => s.rows[i].name
    case None => ""
  }
}

=== FILE: category_usecase.dfy ===
/** The category use-case: creation and renaming behind the validator, and
    the guarded soft delete. */
module CategoryUsecase {
  import opened Base
  import opened Model
  import opened CategoryRepository

  /** Creates a category from its name alone: a rejected input writes
      nothing; otherwise one live row is appended under the next id, with
      the name as its only set column. */
  function Create(s: CategoryStore, input: CreateCategoryInput,
                  validate: CreateCategoryInput -> bool): (r: Result<CategoryStore>)
    ensures !validate(input) ==> r == Failure(ValidationFailed)
    ensures validate(input) ==> (r.Success? <==> forall i :: 0 <= i < |s.rows| ==> s.rows[i].id != s.nextId)
    ensures r.Failure? && validate(input) ==> r.error == DuplicateKey
    ensures r.Success? ==> r.value.rows == s.rows + [Category(s.nextId, input.name, ZeroTime, ZeroTime, None)]
    ensures r.Success? && UniqueIds(s.rows) ==> UniqueIds(r.value.rows)
  {
    if !validate(input) then Failure(ValidationFailed)
    else CategoryRepository.Create(s, Category(0, input.name, ZeroTime, ZeroTime, None))
  }

  /** A created category is found under the id the sequence gave it. */
  lemma CreateThenFind(s: CategoryStore, input: CreateCategoryInput,
                       validate: CreateCategoryInput -> bool)
    requires Create(s, input, validate).Success?
    ensures var found := FindById(Create(s, input, validate).value, s.nextId);
            found.Some? && found.value.name == input.name
  {
    var t := Create(s, input, validate).value;
    var k := |s.rows|;
    assert t.rows[k].id == s.nextId && t.rows[k].Live();
    var found := FindById(t, s.nextId);
    var i :| 0 <= i < |t.rows| && t.rows[i] == found.value;
    assert i == k;
  }

  /** Renames a live category and stamps it `now`. The source dereferences
      the lookup's result without a check, so the category must exist
      whenever the validator accepts the input. */
  function Update(s: CategoryStore, id: int, input: UpdateCategoryInput, now: Instant,
                  validate: UpdateCategoryInput -> bool): (r: Result<CategoryStore>)
    requires validate(input) ==> FindById(s, id).Some?
    ensures r.Success? <==> validate(input)
    ensures r.Failure? ==> r.error == ValidationFailed
    ensures r.Success? ==>
              var found := FindById(r.value, id);
              && found.Some? && found.value.name == input.name && found.value.updatedAt == now
              && found.value.createdAt == FindById(s, id).value.createdAt
    ensures r.Success? ==>
              && r.value.nextId == s.nextId && |r.value.rows| == |s.rows|
              && forall i :: 0 <= i < |s.rows| && s.rows[i].id != id ==> r.value.rows[i] == s.rows[i]
  {
    if !validate(input) then Failure(ValidationFailed)
    else
      var existing := FindById(s, id).value;
      var t := CategoryRepository.Update(s, existing.(name := input.name, updatedAt := now));
      UpdatedRowFound(s, existing.(name := input.name, updatedAt := now));
      Success(t)
  }

  /** Updating a live category's row: the lookup then finds exactly that
      row, overwritten. */
  lemma UpdatedRowFound(s: CategoryStore, c: Category)
    requires FindById(s, c.id).Some?
    ensures var found := FindById(CategoryRepository.Update(s, c), c.id);
            found.Some? && found.value == Overwrite(FindById(s, c.id).value, c)
  {
  }

  /** Soft-deletes a live category; "category not found" otherwise. The
      already-deleted branch of the source cannot be reached, because the
      lookup hides deleted categories. */
  function Delete(s: CategoryStore, id: int, now: Instant): (r: Result<CategoryStore>)
    ensures r.Success? <==> exists i :: 0 <= i < |s.rows| && s.rows[i].id == id && s.rows[i].Live()
    ensures r.Failure? ==> r.error == CategoryNotFound
    ensures r.Success? ==> r.value == CategoryRepository.Delete(s, id, now)
  {
    match FindById(s, id)
    case None => Failure(CategoryNotFound)
    case Some(c) =>
      if !c.Live() then Failure(CategoryAlreadyDeleted)
      else Success(CategoryRepository.Delete(s, id, now))
  }

  /** Deleting the same category twice: the second attempt reports
      "category not found", not "category already deleted". */
  lemma DeleteTwice(s: CategoryStore, id: int, t1: Instant, t2: Instant)
    requires Delete(s, id, t1).Success?
    ensures Delete(Delete(s, id, t1).value, id, t2) == Failure(CategoryNotFound)
  {
  }
}

=== FILE: decimal.dfy ===
/** Decimal spelling of natural numbers, as Go's `fmt` writes them with `%d`
    and `%0<width>d`, together with the reading back that proves the spelling
    loses nothing. */
module Decimal {

  function Pow10(k: nat): (r: nat)
    ensures r >= 1
  {
    if k == 0 then 1 else 10 * Pow10(k - 1)
  }

  predicate IsDigit(c: char) {
    '0' <= c <= '9'
  }

  predicate AllDigits(s: string) {
    forall i :: 0 <= i < |s| ==> IsDigit(s[i])
  }

  function DigitValue(c: char): (d: nat)
    requires IsDigit(c)
    ensures d < 10
  {
    c as int - '0' as int
  }

  function DigitChar(d: nat): (c: char)
    requires d < 10
    ensures IsDigit(c) && DigitValue(c) == d
  {
    ('0' as int + d) as char
  }

  /** The shortest decimal spelling of `n` (`%d`). */
  function Digits(n: nat): (s: string)
    ensures 1 <= |s|
    ensures AllDigits(s)
  {
    if n < 10 then [DigitChar(n)] else Digits(n / 10) + [DigitChar(n % 10)]
  }

  function Zeros(k: nat): (s: string)
    ensures |s| == k
    ensures forall i :: 0 <= i < k ==> s[i] == '0'
  {
    seq(k, _ => '0')
  }

  /** `n` left-padded with zeros to at least `width` characters (`%0<width>d`);
      a longer spelling is never cut. */
  function PadLeft(n: nat, width: nat): (s: string)
    ensures AllDigits(s)
    ensures |s| == if width > |Digits(n)| then width else |Digits(n)|
  {
    var d := Digits(n);
    if width > |d| then Zeros(width - |d|) + d else d
  }

  /** The value of a string of digits; leading zeros contribute nothing. */
  function ParseNat(s: string): (n: nat)
    requires AllDigits(s)
  {
    if s == [] then 0 else 10 * ParseNat(s[..|s| - 1]) + DigitValue(s[|s| - 1])
  }

  lemma {:induction false} ParseDigits(n: nat)
    ensures ParseNat(Digits(n)) == n
  {
    if n >= 10 {
      var s := Digits(n);
      assert s[..|s| - 1] == Digits(n / 10);
      ParseDigits(n / 10);
    }
  }

  lemma {:induction false} ParseZeros(k: nat)
    ensures ParseNat(Zeros(k)) == 0
  {
    if k > 0 {
      assert Zeros(k)[..k - 1] == Zeros(k - 1);
      ParseZeros(k - 1);
    }
  }

  lemma {:induction false} ParseIgnoresLeadingZeros(k: nat, s: string)
    requires AllDigits(s)
    ensures AllDigits(Zeros(k) + s)
    ensures ParseNat(Zeros(k) + s) == ParseNat(s)
  {
    var z := Zeros(k) + s;
    if s == [] {
      assert z == Zeros(k);
      ParseZeros(k);
    } else {
      assert z[..|z| - 1] == Zeros(k) + s[..|s| - 1];
      ParseIgnoresLeadingZeros(k, s[..|s| - 1]);
    }
  }

  /** Padding is undone by reading the number back. */
  lemma PadLeftRoundTrip(n: nat, width: nat)
    ensures ParseNat(PadLeft(n, width)) == n
  {
    var d := Digits(n);
    ParseDigits(n);
    if width > |d| {
      ParseIgnoresLeadingZeros(width - |d|, d);
    }
  }

  /** A number below 10^k needs at most k digits. */
  lemma {:induction false} DigitsFit(n: nat, k: nat)
    requires 1 <= k && n < Pow10(k)
    ensures |Digits(n)| <= k
  {
    if n >= 10 {
      assert Pow10(1) == 10;
      assert k >= 2;
      assert n / 10 < Pow10(k - 1);
      DigitsFit(n / 10, k - 1);
    }
  }
}

=== FILE: model.dfy ===
/** The entities of the shop: orders with their line items, products,
    categories, and the inputs the use-cases accept. Money is a whole number
    (the product price is an `int64`); timestamps are `Base.Instant`. */
module Model {
  import opened Base

  /** A line of an order, with the unit price captured when the order was made. */
  datatype OrderItem = OrderItem(
    id: int,
    orderId: string,
    productId: int,
    quantity: int,
    price: int,
    createdAt: Instant,
    updatedAt: Instant,
    deletedAt: Option<Instant>)

  /** An order; `orderItems` is filled only when the items are loaded with it. */
  datatype Order = Order(
    id: string,
    userId: int,
    totalAmount: int,
    createdAt: Instant,
    updatedAt: Instant,
    deletedAt: Option<Instant>,
    orderItems: seq<OrderItem>)
  {
    predicate Live() {
      deletedAt.None?
    }
  }

  datatype CreateOrderItem = CreateOrderItem(productId: int, quantity: int)

  datatype CreateOrderInput = CreateOrderInput(userId: int, orderItems: seq<CreateOrderItem>)

  /** A product; `categoryName` is not stored but joined in from the category. */
  datatype Product = Product(
    id: int,
    name: string,
    description: string,
    price: int,
    stock: int,
    categoryId: int,
    categoryName: string,
    imageUrl: string,
    createdAt: Instant,
    updatedAt: Instant,
    deletedAt: Option<Instant>)
  {
    predicate Live() {
      deletedAt.None?
    }
  }

  /** Paging of the product list, two 64-bit integers; a `limit` of zero or
      less means no paging. */
  datatype FindAllParam = FindAllParam(limit: Int64, page: Int64)

  datatype CreateProductInput = CreateProductInput(
    name: string,
    description: string,
    price: int,
    stock: int,
    categoryId: int,
    imageUrl: string)

  datatype UpdateProductInput = UpdateProductInput(
    name: string,
    description: string,
    price: int,
    stock: int,
    categoryId: int,
    imageUrl: string)

  datatype Category = Category(
    id: int,
    name: string,
    createdAt: Instant,
    updatedAt: Instant,
    deletedAt: Option<Instant>)
  {
    predicate Live() {
      deletedAt.None?
    }
  }

  datatype CreateCategoryInput = CreateCategoryInput(name: string)

  datatype UpdateCategoryInput = UpdateCategoryInput(name: string)
}

=== FILE: order_repository.dfy ===
/** The order store: the `orders` table and the `order_items` table, the
    soft-deleting reads and delete, and `SaveOrder`, which numbers a new order
    by the day, inserts it and upserts its items in one transaction. */
module OrderRepository {
  import opened Base
  import opened Decimal
  import opened Model

  /** `orders` keyed by id; `items` in primary-key order, the item at
      position i having been given id i + 1. */
  datatype OrderStore = OrderStore(orders: map<string, Order>, items: seq<OrderItem>)

  /** A committed save: the state after it and the id the order was given. */
  datatype Saved = Saved(store: OrderStore, id: string)

  // ---------------------------------------------------------------------
  // Order ids: "ORD-" + YYYYMMDD + "-" + the day's sequence number (%03d)
  // ---------------------------------------------------------------------

  function OrderId(day: DayStamp, n: nat): string
  {
    "ORD-" + PadLeft(day, 8) + "-" + PadLeft(n, 3)
  }

  /** Reads an id back into its day and sequence number. */
  function ParseOrderId(s: string): Option<(nat, nat)>
  {
    if |s| >= 14 && s[..4] == "ORD-" && s[12] == '-' && AllDigits(s[4..12]) && AllDigits(s[13..])
    then Some((ParseNat(s[4..12]), ParseNat(s[13..])))
    else None
  }

  lemma OrderIdRoundTrip(day: DayStamp, n: nat)
    ensures ParseOrderId(OrderId(day, n)) == Some((day as nat, n))
  {
    var d := PadLeft(day, 8);
    var m := PadLeft(n, 3);
    assert Pow10(8) == 100_000_000;
    DigitsFit(day, 8);
    assert |d| == 8;
    assert |m| >= 3;
    var s := OrderId(day, n);
    assert s[..4] == "ORD-";
    assert s[4..12] == d;
    assert s[12] == '-';
    assert s[13..] == m;
    PadLeftRoundTrip(day, 8);
    PadLeftRoundTrip(n, 3);
  }

  /** Different days or different sequence numbers never share an id. */
  lemma OrderIdInjective(day1: DayStamp, n1: nat, day2: DayStamp, n2: nat)
    requires OrderId(day1, n1) == OrderId(day2, n2)
    ensures day1 == day2 && n1 == n2
  {
    OrderIdRoundTrip(day1, n1);
    OrderIdRoundTrip(day2, n2);
  }

  /** How many orders, soft-deleted ones included, were created on `day`. */
  function CountOnDay(orders: map<string, Order>, day: DayStamp): (r: nat)
  {
    |set id | id in orders && orders[id].createdAt.day == day|
  }

  lemma CountAfterInsert(orders: map<string, Order>, id: string, o: Order, day: DayStamp)
    requires id !in orders
    ensures CountOnDay(orders[id := o], day)
            == CountOnDay(orders, day) + (if o.createdAt.day == day then 1 else 0)
  {
    var before := set x | x in orders && orders[x].createdAt.day == day;
    var m := orders[id := o];
    var after := set x | x in m && m[x].createdAt.day == day;
    if o.createdAt.day == day {
      assert after == before + {id};
    } else {
      assert after == before;
    }
  }

  lemma CountAfterTouch(orders: map<string, Order>, id: string, o: Order, day: DayStamp)
    requires id in orders && o.createdAt == orders[id].createdAt
    ensures CountOnDay(orders[id := o], day) == CountOnDay(orders, day)
  {
    var before := set x | x in orders && orders[x].createdAt.day == day;
    var m := orders[id := o];
    var after := set x | x in m && m[x].createdAt.day == day;
    assert after == before;
  }

  // ---------------------------------------------------------------------
  // Order items, keyed for upsert by (order_id, product_id)
  // ---------------------------------------------------------------------

  predicate Hit(x: OrderItem, orderId: string, productId: int) {
    x.orderId == orderId && x.productId == productId
  }

  /** `WHERE order_id = ? AND product_id = ?` followed by `First`. */
  function FindItem(rows: seq<OrderItem>, orderId: string, productId: int): (r: Option<nat>)
    ensures r.Some? ==> r.value < |rows| && Hit(rows[r.value], orderId, productId)
    ensures r.Some? ==> forall j :: 0 <= j < r.value ==> !Hit(rows[j], orderId, productId)
    ensures r.None? <==> forall j :: 0 <= j < |rows| ==> !Hit(rows[j], orderId, productId)
  {
    FirstIndex(rows, (x: OrderItem) => Hit(x, orderId, productId))
  }

  /** One pass of the item loop: add the quantity to the existing row for the
      same order and product (its price stays), or insert the item under the
      order's id with the next primary key. */
  function Upsert(rows: seq<OrderItem>, orderId: string, item: OrderItem, now: Instant): seq<OrderItem>
  {
    match FindItem(rows, orderId, item.productId)
    case Some(i) =>
      rows[i := rows[i].(quantity := rows[i].quantity + item.quantity, updatedAt := now)]
    case None =>
      rows + [item.(id := |rows| + 1, orderId := orderId, createdAt := now, updatedAt := now)]
  }

  /** `after` keeps every row of `before` in place with its key and price,
      leaves rows of other orders untouched, and only appends rows of `orderId`. */
  predicate KeepsOtherRows(before: seq<OrderItem>, after: seq<OrderItem>, orderId: string) {
    && |before| <= |after|
    && (forall i :: 0 <= i < |before| ==>
          after[i].orderId == before[i].orderId && after[i].productId == before[i].productId
          && after[i].price == before[i].price)
    && (forall i :: 0 <= i < |before| && before[i].orderId != orderId ==> after[i] == before[i])
    && (forall i :: |before| <= i < |after| ==> after[i].orderId == orderId)
  }

  /** The item loop of `SaveOrder`, item `k` onwards; `SaveItem(j)` in
      `faults` makes the write of item j fail. */
  function SaveItems(rows: seq<OrderItem>, orderId: string, items: seq<OrderItem>,
                     now: Instant, faults: set<Stmt>, k: nat): (r: Result<seq<OrderItem>>)
    decreases |items|
    ensures r.Success? <==> forall j :: k <= j < k + |items| ==> SaveItem(j) !in faults
    ensures r.Failure? ==>
              exists j :: k <= j < k + |items| && SaveItem(j) in faults
                          && r.error == StatementFailed(SaveItem(j))
    ensures r.Success? ==> KeepsOtherRows(rows, r.value, orderId)
  {
    if items == [] then Success(rows)
    else if SaveItem(k) in faults then Failure(StatementFailed(SaveItem(k)))
    else
      var u := Upsert(rows, orderId, items[0], now);
      UpsertKeepsOtherRows(rows, orderId, items[0], now);
      match SaveItems(u, orderId, items[1..], now, faults, k + 1)
      case Success(after) =>
        KeepsOtherRowsTransitive(rows, u, after, orderId);
        Success(after)
      case Failure(e) => Failure(e)
  }

  /** One pass of the item loop: with a row of the same order and product
      already present nothing is appended; otherwise exactly one row of this
      order and product, with the item's quantity and price, is appended. */
  lemma UpsertShape(rows: seq<OrderItem>, orderId: string, item: OrderItem, now: Instant)
    ensures var r := Upsert(rows, orderId, item, now);
            (exists j :: 0 <= j < |rows| && Hit(rows[j], orderId, item.productId)) ==> |r| == |rows|
    ensures var r := Upsert(rows, orderId, item, now);
            (forall j :: 0 <= j < |rows| ==> !Hit(rows[j], orderId, item.productId)) ==>
              && |r| == |rows| + 1 && r[..|rows|] == rows
              && Hit(r[|rows|], orderId, item.productId) && r[|rows|].quantity == item.quantity
              && r[|rows|].price == item.price
  {
  }

  /** One pass of the item loop keeps the other rows. */
  lemma UpsertKeepsOtherRows(rows: seq<OrderItem>, orderId: string, item: OrderItem, now: Instant)
    ensures KeepsOtherRows(rows, Upsert(rows, orderId, item, now), orderId)
  {
  }

  lemma KeepsOtherRowsTransitive(a: seq<OrderItem>, b: seq<OrderItem>, c: seq<OrderItem>, orderId: string)
    requires KeepsOtherRows(a, b, orderId) && KeepsOtherRows(b, c, orderId)
    ensures KeepsOtherRows(a, c, orderId)
  {
  }

  /** Total quantity in the rows of one order and product. */
  function Qty(rows: seq<OrderItem>, orderId: string, productId: int): (q: int)
    ensures (forall i :: 0 <= i < |rows| ==> !Hit(rows[i], orderId, productId)) ==> q == 0
  {
    if rows == [] then 0
    else (if Hit(rows[0], orderId, productId) then rows[0].quantity else 0)
         + Qty(rows[1..], orderId, productId)
  }

  predicate HasRow(rows: seq<OrderItem>, orderId: string, productId: int) {
    exists i :: 0 <= i < |rows| && Hit(rows[i], orderId, productId)
  }

  predicate AtMostOneRow(rows: seq<OrderItem>, orderId: string, productId: int) {
    forall i, j ::
      (0 <= i < |rows| && 0 <= j < |rows| && Hit(rows[i], orderId, productId) && Hit(rows[j], orderId, productId))
      ==> i == j
  }

  /** The price on the first row of one order and product. */
  function PriceOf(rows: seq<OrderItem>, orderId: string, productId: int): Option<int> {
    match FindItem(rows, orderId, productId)
    case Some(i) => Some(rows[i].price)
    case None => None
  }

  /** Sum of the quantities of the items for `productId`. */
  function SumQty(items: seq<OrderItem>, productId: int): int {
    if items == [] then 0
    else (if items[0].productId == productId then items[0].quantity else 0) + SumQty(items[1..], productId)
  }

  predicate Mentions(items: seq<OrderItem>, productId: int) {
    exists i :: 0 <= i < |items| && items[i].productId == productId
  }

  /** Price of the first item for `productId`. */
  function FirstPrice(items: seq<OrderItem>, productId: int): Option<int> {
    if items == [] then None
    else if items[0].productId == productId then Some(items[0].price)
    else FirstPrice(items[1..], productId)
  }

  lemma {:induction false} QtyAppend(rows: seq<OrderItem>, x: OrderItem, orderId: string, productId: int)
    ensures Qty(rows + [x], orderId, productId)
            == Qty(rows, orderId, productId) + (if Hit(x, orderId, productId) then x.quantity else 0)
  {
    if rows != [] {
      assert (rows + [x])[1..] == rows[1..] + [x];
      QtyAppend(rows[1..], x, orderId, productId);
    } else {
      assert [x][1..] == [];
    }
  }

  lemma {:induction false} QtyUpdate(rows: seq<OrderItem>, i: nat, x: OrderItem, orderId: string, productId: int)
    requires i < |rows|
    ensures Qty(rows[i := x], orderId, productId)
            == Qty(rows, orderId, productId)
               - (if Hit(rows[i], orderId, productId) then rows[i].quantity else 0)
               + (if Hit(x, orderId, productId) then x.quantity else 0)
  {
    if i == 0 {
      assert rows[i := x][1..] == rows[1..];
    } else {
      assert rows[i := x][1..] == rows[1..][i - 1 := x];
      QtyUpdate(rows[1..], i - 1, x, orderId, productId);
    }
  }

  /** Upserting an item adds its quantity to its own (order, product) and to no other. */
  lemma UpsertQty(rows: seq<OrderItem>, orderId: string, item: OrderItem, now: Instant,
                  otherOrder: string, productId: int)
    ensures Qty(Upsert(rows, orderId, item, now), otherOrder, productId)
            == Qty(rows, otherOrder, productId)
               + (if otherOrder == orderId && productId == item.productId then item.quantity else 0)
  {
    match FindItem(rows, orderId, item.productId)
    case Some(i) =>
      QtyUpdate(rows, i, rows[i].(quantity := rows[i].quantity + item.quantity, updatedAt := now),
                otherOrder, productId);
    case None =>
      QtyAppend(rows, item.(id := |rows| + 1, orderId := orderId, createdAt := now, updatedAt := now),
                otherOrder, productId);
  }

  /** Upserting keeps at most one row per product of the order, and keeps the
      first price. */
  lemma UpsertKeepsOneRow(rows: seq<OrderItem>, orderId: string, item: OrderItem, now: Instant, productId: int)
    requires AtMostOneRow(rows, orderId, productId)
    ensures var after := Upsert(rows, orderId, item, now);
            && AtMostOneRow(after, orderId, productId)
            && (HasRow(after, orderId, productId) <==> HasRow(rows, orderId, productId) || item.productId == productId)
            && PriceOf(after, orderId, productId)
               == if HasRow(rows, orderId, productId) then PriceOf(rows, orderId, productId)
                  else if item.productId == productId then Some(item.price)
                  else None
  {
    var after := Upsert(rows, orderId, item, now);
    match FindItem(rows, orderId, item.productId)
    case Some(i) =>
      assert forall j :: 0 <= j < |rows| ==>
               (Hit(after[j], orderId, productId) <==> Hit(rows[j], orderId, productId));
      assert HasRow(rows, orderId, item.productId);
      if HasRow(rows, orderId, productId) {
        var f := FindItem(rows, orderId, productId).value;
        assert FindItem(after, orderId, productId) == Some(f);
      }
    case None =>
      assert forall j :: 0 <= j < |rows| ==> after[j] == rows[j];
      if item.productId == productId {
        assert Hit(after[|rows|], orderId, productId);
        assert !HasRow(rows, orderId, productId);
        assert FindItem(after, orderId, productId) == Some(|rows|);
      } else if HasRow(rows, orderId, productId) {
        var f := FindItem(rows, orderId, productId).value;
        assert FindItem(after, orderId, productId) == Some(f);
      }
  }

  /** The item loop merges items of the same product into one row whose
      quantity is their sum and whose price is the first one's. */
  lemma {:induction false} SaveItemsMerge(rows: seq<OrderItem>, orderId: string, items: seq<OrderItem>,
                                          now: Instant, faults: set<Stmt>, k: nat, productId: int)
    requires SaveItems(rows, orderId, items, now, faults, k).Success?
    requires AtMostOneRow(rows, orderId, productId)
    ensures var after := SaveItems(rows, orderId, items, now, faults, k).value;
            && AtMostOneRow(after, orderId, productId)
            && (HasRow(after, orderId, productId) <==> HasRow(rows, orderId, productId) || Mentions(items, productId))
            && Qty(after, orderId, productId) == Qty(rows, orderId, productId) + SumQty(items, productId)
            && PriceOf(after, orderId, productId)
               == if HasRow(rows, orderId, productId) then PriceOf(rows, orderId, productId)
                  else FirstPrice(items, productId)
    decreases |items|
  {
    if items != [] {
      var next := Upsert(rows, orderId, items[0], now);
      UpsertKeepsOneRow(rows, orderId, items[0], now, productId);
      UpsertQty(rows, orderId, items[0], now, orderId, productId);
      SaveItemsMerge(next, orderId, items[1..], now, faults, k + 1, productId);
      assert Mentions(items, productId) <==> items[0].productId == productId || Mentions(items[1..], productId) by {
        if Mentions(items[1..], productId) {
          var i :| 0 <= i < |items[1..]| && items[1..][i].productId == productId;
          assert items[i + 1].productId == productId;
        }
        if Mentions(items, productId) && items[0].productId != productId {
          var i :| 0 <= i < |items| && items[i].productId == productId;
          assert items[1..][i - 1].productId == productId;
        }
      }
    }
  }

  /** Items written by other orders' saves leave other orders' quantities alone. */
  lemma {:induction false} SaveItemsQtyElsewhere(rows: seq<OrderItem>, orderId: string, items: seq<OrderItem>,
                                                 now: Instant, faults: set<Stmt>, k: nat,
                                                 otherOrder: string, productId: int)
    requires SaveItems(rows, orderId, items, now, faults, k).Success?
    requires otherOrder != orderId
    ensures Qty(SaveItems(rows, orderId, items, now, faults, k).value, otherOrder, productId)
            == Qty(rows, otherOrder, productId)
    decreases |items|
  {
    if items != [] {
      UpsertQty(rows, orderId, items[0], now, otherOrder, productId);
      SaveItemsQtyElsewhere(Upsert(rows, orderId, items[0], now), orderId, items[1..], now, faults, k + 1,
                            otherOrder, productId);
    }
  }

  // ---------------------------------------------------------------------
  // SaveOrder
  // ---------------------------------------------------------------------

  /** The id `SaveOrder` gives an order saved on `day`. */
  function NextOrderId(s: OrderStore, day: DayStamp): string {
    OrderId(day, CountOnDay(s.orders, day) + 1)
  }

  /** Saves `order` in one transaction on the day of `now`. A failing
      statement, or a clash with an existing id, returns an error and no new
      state: the transaction is rolled back. */
  function SaveOrder(s: OrderStore, order: Order, now: Instant, faults: set<Stmt>): (r: Result<Saved>)
    ensures r.Success? <==>
              && Begin !in faults && CountToday !in faults
              && NextOrderId(s, now.day) !in s.orders
              && InsertOrder !in faults
              && (forall j :: 0 <= j < |order.orderItems| ==> SaveItem(j) !in faults)
              && Commit !in faults
    ensures r == Failure(DuplicateOrder) <==>
              Begin !in faults && CountToday !in faults && NextOrderId(s, now.day) in s.orders
    ensures r.Failure? && r.error != DuplicateOrder ==> r.error.StatementFailed? && r.error.stmt in faults
    ensures r.Success? ==> r.value.id == NextOrderId(s, now.day) && r.value.id !in s.orders
    ensures r.Success? ==> r.value.store.orders.Keys == s.orders.Keys + {r.value.id}
    ensures r.Success? ==> forall id :: id in s.orders ==> r.value.store.orders[id] == s.orders[id]
    ensures r.Success? ==>
              var row := r.value.store.orders[r.value.id];
              row.id == r.value.id && row.orderItems == []
              && row == order.(id := row.id, orderItems := [])
    ensures r.Success? ==> KeepsOtherRows(s.items, r.value.store.items, r.value.id)
  {
    if Begin in faults then Failure(StatementFailed(Begin))
    else if CountToday in faults then Failure(StatementFailed(CountToday))
    else
      var id := NextOrderId(s, now.day);
      if id in s.orders then Failure(DuplicateOrder)
      else if InsertOrder in faults then Failure(StatementFailed(InsertOrder))
      else match SaveItems(s.items, id, order.orderItems, now, faults, 0)
        case Failure(e) => Failure(e)
        case Success(items) =>
          if Commit in faults then Failure(StatementFailed(Commit))
          else Success(Saved(OrderStore(s.orders[id := order.(id := id, orderItems := [])], items), id))
  }

  // ---------------------------------------------------------------------
  // Reads and soft delete
  // ---------------------------------------------------------------------

  /** The stored order `id` with its items loaded (`Preload("OrderItems")`). */
  function Preload(s: OrderStore, id: string): (r: Order)
    requires id in s.orders
    ensures r == s.orders[id].(orderItems := r.orderItems)
    ensures forall x :: x in r.orderItems <==> x in s.items && x.orderId == id
  {
    s.orders[id].(orderItems := Filter(s.items, (x: OrderItem) => x.orderId == id))
  }

  /** `WHERE id = ? AND deleted_at IS NULL`, with the items loaded. */
  function FindById(s: OrderStore, id: string): (r: Result<Order>)
    ensures r.Success? <==> id in s.orders && s.orders[id].Live()
    ensures r.Failure? ==> r.error == OrderNotFound
    ensures r.Success? ==> r.value.Live() && r.value == s.orders[id].(orderItems := r.value.orderItems)
    ensures r.Success? ==> forall x :: x in r.value.orderItems <==> x in s.items && x.orderId == id
  {
    if id in s.orders && s.orders[id].Live() then Success(Preload(s, id)) else Failure(OrderNotFound)
  }

  /** `WHERE user_id = ? AND deleted_at IS NULL`, with the items loaded; no
      match is an empty result, not an error. */
  function FindAll(s: OrderStore, userId: int): (r: set<Order>)
    ensures forall o :: o in r ==> o.userId == userId && o.Live()
    ensures forall o :: o in r ==> exists id :: id in s.orders && o == Preload(s, id)
    ensures forall id :: id in s.orders && s.orders[id].userId == userId && s.orders[id].Live()
                         ==> Preload(s, id) in r
  {
    set id | id in s.orders && s.orders[id].userId == userId && s.orders[id].Live() :: Preload(s, id)
  }

  /** `UPDATE orders SET deleted_at = now WHERE id = ?`, which the ORM
      extends with `updated_at = now`: no check of the previous state, and no
      error when nothing matches. */
  function Delete(s: OrderStore, id: string, now: Instant): (r: OrderStore)
    ensures r.items == s.items && r.orders.Keys == s.orders.Keys
    ensures id in s.orders ==> r.orders[id] == s.orders[id].(deletedAt := Some(now), updatedAt := now)
    ensures id in s.orders ==> !r.orders[id].Live() && r.orders[id].createdAt == s.orders[id].createdAt
    ensures forall k :: k in s.orders && k != id ==> r.orders[k] == s.orders[k]
  {
    if id in s.orders then s.(orders := s.orders[id := s.orders[id].(deletedAt := Some(now), updatedAt := now)]) else s
  }

  // ---------------------------------------------------------------------
  // Invariants of a store built by these operations
  // ---------------------------------------------------------------------

  /** Every item row belongs to a stored order. */
  predicate ItemsBelongToOrders(s: OrderStore) {
    forall i :: 0 <= i < |s.items| ==> s.items[i].orderId in s.orders
  }

  /** Every stored id spells its own creation day and a sequence number
      between 1 and the number of orders created that day. */
  predicate NumberedFor(id: string, day: DayStamp, count: nat) {
    match ParseOrderId(id)
    case None => false
    case Some((d, n)) => d == day && 1 <= n <= count
  }

  predicate WellNumbered(orders: map<string, Order>) {
    forall id :: id in orders ==> NumberedFor(id, orders[id].createdAt.day, CountOnDay(orders, orders[id].createdAt.day))
  }

  /** In a store numbered by these rules the duplicate check never fires. A
      clash needs a store outside the rules: one where an order was saved
      under a day other than its creation day, or concurrent saves. */
  lemma NoDuplicateInSequence(s: OrderStore, order: Order, now: Instant, faults: set<Stmt>)
    requires WellNumbered(s.orders)
    ensures SaveOrder(s, order, now, faults) != Failure(DuplicateOrder)
  {
    OrderIdRoundTrip(now.day, CountOnDay(s.orders, now.day) + 1);
  }

  /** Inserting the day's next id for an order created that day keeps the
      numbering rule. */
  lemma InsertKeepsNumbering(orders: map<string, Order>, id: string, row: Order, day: DayStamp)
    requires WellNumbered(orders) && id !in orders
    requires row.createdAt.day == day && id == OrderId(day, CountOnDay(orders, day) + 1)
    ensures WellNumbered(orders[id := row])
  {
    var m := orders[id := row];
    forall d: DayStamp
      ensures CountOnDay(m, d) == CountOnDay(orders, d) + (if day == d then 1 else 0)
    {
      CountAfterInsert(orders, id, row, d);
    }
    OrderIdRoundTrip(day, CountOnDay(orders, day) + 1);
    forall x | x in m
      ensures NumberedFor(x, m[x].createdAt.day, CountOnDay(m, m[x].createdAt.day))
    {
      if x != id {
        assert NumberedFor(x, orders[x].createdAt.day, CountOnDay(orders, orders[x].createdAt.day));
      }
    }
  }

  /** Saving an order created today keeps the numbering rule and the link of
      items to orders. */
  lemma SaveOrderKeepsInvariants(s: OrderStore, order: Order, now: Instant, faults: set<Stmt>)
    requires WellNumbered(s.orders) && ItemsBelongToOrders(s)
    requires order.createdAt.day == now.day
    requires SaveOrder(s, order, now, faults).Success?
    ensures var t := SaveOrder(s, order, now, faults).value.store;
            WellNumbered(t.orders) && ItemsBelongToOrders(t)
  {
    var saved := SaveOrder(s, order, now, faults).value;
    var row := order.(id := saved.id, orderItems := []);
    assert saved.store.orders == s.orders[saved.id := row];
    InsertKeepsNumbering(s.orders, saved.id, row, now.day);
  }

  /** Orders saved one after another on one day are numbered consecutively. */
  lemma ConsecutiveSaves(s: OrderStore, o1: Order, o2: Order, now: Instant, later: Instant, faults: set<Stmt>)
    requires o1.createdAt.day == now.day && later.day == now.day
    requires SaveOrder(s, o1, now, faults).Success?
    requires SaveOrder(SaveOrder(s, o1, now, faults).value.store, o2, later, faults).Success?
    ensures var n := CountOnDay(s.orders, now.day);
            && SaveOrder(s, o1, now, faults).value.id == OrderId(now.day, n + 1)
            && SaveOrder(SaveOrder(s, o1, now, faults).value.store, o2, later, faults).value.id
               == OrderId(now.day, n + 2)
  {
    var saved := SaveOrder(s, o1, now, faults).value;
    CountAfterInsert(s.orders, saved.id, o1.(id := saved.id, orderItems := []), now.day);
  }

  /** Soft deletion keeps the numbering rule: deleted orders still count. */
  lemma DeleteKeepsInvariants(s: OrderStore, id: string, now: Instant)
    requires WellNumbered(s.orders) && ItemsBelongToOrders(s)
    ensures WellNumbered(Delete(s, id, now).orders) && ItemsBelongToOrders(Delete(s, id, now))
  {
    if id in s.orders {
      var m := Delete(s, id, now).orders;
      forall d: DayStamp
        ensures CountOnDay(m, d) == CountOnDay(s.orders, d)
      {
        CountAfterTouch(s.orders, id, m[id], d);
      }
      forall x | x in m
        ensures NumberedFor(x, m[x].createdAt.day, CountOnDay(m, m[x].createdAt.day))
      {
        assert NumberedFor(x, s.orders[x].createdAt.day, CountOnDay(s.orders, s.orders[x].createdAt.day));
      }
    }
  }

  /** A successful save stores one row per product of the order: its
      quantity is the sum over the order's items of that product and its
      price the first such item's. */
  lemma SaveOrderMergesByProduct(s: OrderStore, order: Order, now: Instant, faults: set<Stmt>, productId: int)
    requires ItemsBelongToOrders(s)
    requires SaveOrder(s, order, now, faults).Success?
    ensures var saved := SaveOrder(s, order, now, faults).value;
            var rows := saved.store.items;
            && AtMostOneRow(rows, saved.id, productId)
            && (HasRow(rows, saved.id, productId) <==> Mentions(order.orderItems, productId))
            && Qty(rows, saved.id, productId) == SumQty(order.orderItems, productId)
            && PriceOf(rows, saved.id, productId) == FirstPrice(order.orderItems, productId)
  {
    var saved := SaveOrder(s, order, now, faults).value;
    assert forall i :: 0 <= i < |s.items| ==> !Hit(s.items[i], saved.id, productId);
    SaveItemsMerge(s.items, saved.id, order.orderItems, now, faults, 0, productId);
  }

  /** A successful save changes no other order's quantities. */
  lemma SaveOrderLeavesOtherOrders(s: OrderStore, order: Order, now: Instant, faults: set<Stmt>,
                                   otherOrder: string, productId: int)
    requires SaveOrder(s, order, now, faults).Success?
    requires otherOrder != SaveOrder(s, order, now, faults).value.id
    ensures Qty(SaveOrder(s, order, now, faults).value.store.items, otherOrder, productId)
            == Qty(s.items, otherOrder, productId)
  {
    var saved := SaveOrder(s, order, now, faults).value;
    SaveItemsQtyElsewhere(s.items, saved.id, order.orderItems, now, faults, 0, otherOrder, productId);
  }
}

=== FILE: order_usecase.dfy ===
/** The order use-case: argument guards on the reads, order creation
    (emptiness check, validation, price snapshot, total, save) and the
    guarded soft delete. */
module OrderUsecase {
  import opened Base
  import opened Model
  import opened OrderRepository
  import ProductRepository

  /** Orders of a user; user 0 is refused before the store is read. */
  function FindAll(s: OrderStore, userId: int): (r: Result<set<Order>>)
    ensures r == Failure(InvalidUserId) <==> userId == 0
    ensures r.Success? <==> userId != 0
    ensures r.Success? ==> forall o :: o in r.value ==> o.userId == userId && o.Live()
    ensures r.Success? ==> forall o :: o in r.value ==> exists id :: id in s.orders && o == Preload(s, id)
    ensures r.Success? ==> forall id :: id in s.orders && s.orders[id].userId == userId && s.orders[id].Live()
                                      ==> Preload(s, id) in r.value
  {
    if userId == 0 then Failure(InvalidUserId) else Success(OrderRepository.FindAll(s, userId))
  }

  /** One order; the empty id is refused before the store is read. */
  function FindById(s: OrderStore, id: string): (r: Result<Order>)
    ensures id == "" ==> r == Failure(InvalidOrderId)
    ensures r.Success? <==> id != "" && id in s.orders && s.orders[id].Live()
    ensures id != "" && r.Failure? ==> r.error == OrderNotFound
    ensures r.Success? ==> r.value == s.orders[id].(orderItems := r.value.orderItems)
    ensures r.Success? ==> forall x :: x in r.value.orderItems <==> x in s.items && x.orderId == id
    ensures id != "" ==> r == OrderRepository.FindById(s, id)
  {
    if id == "" then Failure(InvalidOrderId) else OrderRepository.FindById(s, id)
  }

  // ---------------------------------------------------------------------
  // Pricing: one price lookup per input item, in order
  // ---------------------------------------------------------------------

  /** Every input item's product has a price. */
  predicate AllPriced(products: ProductRepository.ProductStore, items: seq<CreateOrderItem>) {
    forall i :: 0 <= i < |items| ==> ProductRepository.GetPriceByID(products, items[i].productId).Success?
  }

  /** `getProductPrice`, for a product known to have a price. */
  function UnitPrice(products: ProductRepository.ProductStore, productId: int): (r: int)
    requires ProductRepository.GetPriceByID(products, productId).Success?
    ensures exists i :: 0 <= i < |products.rows| && products.rows[i].id == productId && products.rows[i].price == r
  {
    ProductRepository.GetPriceByID(products, productId).value
  }

  /** The sum over the input items of their product's price times their quantity. */
  function InputTotal(products: ProductRepository.ProductStore, items: seq<CreateOrderItem>): int
    requires AllPriced(products, items)
  {
    if items == [] then 0
    else UnitPrice(products, items[0].productId) * items[0].quantity + InputTotal(products, items[1..])
  }

  /** The order line built for one input item at the looked-up price. */
  function NewItem(item: CreateOrderItem, price: int, now: Instant): OrderItem {
    OrderItem(0, "", item.productId, item.quantity, price, now, now, None)
  }

  /** The order lines for the input items, one for one and in order, each
      carrying the product's price at this moment. */
  function NewItems(products: ProductRepository.ProductStore, items: seq<CreateOrderItem>, now: Instant): (r: seq<OrderItem>)
    requires AllPriced(products, items)
    ensures |r| == |items|
    ensures forall i :: 0 <= i < |items| ==>
              r[i] == NewItem(items[i], UnitPrice(products, items[i].productId), now)
  {
    if items == [] then []
    else [NewItem(items[0], UnitPrice(products, items[0].productId), now)] + NewItems(products, items[1..], now)
  }

  /** The loop of `Create`: look up each item's price, add price times
      quantity to the total and append the line; the first failed lookup ends it. */
  function PriceItems(products: ProductRepository.ProductStore, items: seq<CreateOrderItem>,
                      now: Instant, acc: Order): (r: Result<Order>)
    decreases |items|
    ensures r.Success? <==> AllPriced(products, items)
    ensures r.Failure? ==>
              exists i :: 0 <= i < |items|
                          && ProductRepository.GetPriceByID(products, items[i].productId) == Failure(r.error)
                          && forall j :: 0 <= j < i ==> ProductRepository.GetPriceByID(products, items[j].productId).Success?
    ensures r.Success? ==>
              && AllPriced(products, items)
              && r.value.totalAmount == acc.totalAmount + InputTotal(products, items)
              && r.value.orderItems == acc.orderItems + NewItems(products, items, now)
              && r.value == acc.(totalAmount := r.value.totalAmount, orderItems := r.value.orderItems)
  {
    if items == [] then Success(acc)
    else match ProductRepository.GetPriceByID(products, items[0].productId)
      case Failure(e) => Failure(e)
      case Success(price) =>
        PriceItems(products, items[1..], now,
                   acc.(totalAmount := acc.totalAmount + price * items[0].quantity,
                        orderItems := acc.orderItems + [NewItem(items[0], price, now)]))
  }

  /** The order `Create` hands to `SaveOrder`. */
  function BuildOrder(products: ProductRepository.ProductStore, input: CreateOrderInput, now: Instant): (r: Result<Order>)
    ensures r.Success? <==> AllPriced(products, input.orderItems)
    ensures r.Success? ==>
              && AllPriced(products, input.orderItems)
              && r.value.userId == input.userId
              && r.value.totalAmount == InputTotal(products, input.orderItems)
              && r.value.orderItems == NewItems(products, input.orderItems, now)
              && r.value.createdAt == now && r.value.updatedAt == now && r.value.Live()
  {
    PriceItems(products, input.orderItems, now, Order("", input.userId, 0, now, now, None, []))
  }

  /** Creates an order as the source writes it: refuses an empty item list,
      then an input the validator rejects, then an item without a price;
      otherwise saves the priced order. The order's creation time is the
      clock reading `created`, and the save numbers it by the day of a second
      reading `saved`. Every refusal leaves the store as it was. */
  function CreateAsWritten(s: OrderStore, products: ProductRepository.ProductStore, input: CreateOrderInput,
                           created: Instant, saved: Instant, validate: CreateOrderInput -> bool,
                           faults: set<Stmt>): (r: Result<Saved>)
    ensures |input.orderItems| == 0 ==> r == Failure(EmptyOrderItems)
    ensures |input.orderItems| > 0 && !validate(input) ==> r == Failure(ValidationFailed)
    ensures |input.orderItems| > 0 && validate(input) && !AllPriced(products, input.orderItems) ==>
              r == Failure(RecordNotFound)
    ensures r == Failure(DuplicateOrder) <==>
              && |input.orderItems| > 0 && validate(input) && AllPriced(products, input.orderItems)
              && Begin !in faults && CountToday !in faults && NextOrderId(s, saved.day) in s.orders
    ensures r.Success? <==>
              && |input.orderItems| > 0 && validate(input) && AllPriced(products, input.orderItems)
              && Begin !in faults && CountToday !in faults && InsertOrder !in faults && Commit !in faults
              && NextOrderId(s, saved.day) !in s.orders
              && (forall j :: 0 <= j < |input.orderItems| ==> SaveItem(j) !in faults)
    ensures (r.Failure? && r.error != DuplicateOrder && |input.orderItems| > 0 && validate(input)
             && AllPriced(products, input.orderItems)) ==> r.error.StatementFailed? && r.error.stmt in faults
    ensures |input.orderItems| > 0 && validate(input) && AllPriced(products, input.orderItems) ==>
              r == SaveOrder(s, BuildOrder(products, input, created).value, saved, faults)
    ensures r.Success? ==>
              && |input.orderItems| > 0 && validate(input) && AllPriced(products, input.orderItems)
              && r.value.id == NextOrderId(s, saved.day) && r.value.id !in s.orders
              && r.value.id in r.value.store.orders
              && r.value.store.orders == s.orders[r.value.id := r.value.store.orders[r.value.id]]
              && var row := r.value.store.orders[r.value.id];
                 row.userId == input.userId && row.Live() && row.createdAt == created
                 && row.totalAmount == InputTotal(products, input.orderItems)
  {
    if |input.orderItems| == 0 then Failure(EmptyOrderItems)
    else if !validate(input) then Failure(ValidationFailed)
    else match BuildOrder(products, input, created)
      case Failure(e) => Failure(e)
      case Success(order) => SaveOrder(s, order, saved, faults)
  }

  /** As written, a call whose two clock readings fall on different days
      (an order placed just before midnight) stores an order that does not
      count towards the day its id names. The next order saved on that day
      is then given the same id and refused as a duplicate, with no
      concurrent call involved. */
  lemma CreateAcrossMidnightBlocksNext(s: OrderStore, products: ProductRepository.ProductStore,
                                       input: CreateOrderInput, created: Instant, saved: Instant,
                                       validate: CreateOrderInput -> bool, faults: set<Stmt>,
                                       next: CreateOrderInput, created2: Instant, later: Instant,
                                       faults2: set<Stmt>)
    requires created.day != saved.day
    requires CreateAsWritten(s, products, input, created, saved, validate, faults).Success?
    requires |next.orderItems| > 0 && validate(next) && AllPriced(products, next.orderItems)
    requires later.day == saved.day && Begin !in faults2 && CountToday !in faults2
    ensures var t := CreateAsWritten(s, products, input, created, saved, validate, faults).value.store;
            CreateAsWritten(t, products, next, created2, later, validate, faults2) == Failure(DuplicateOrder)
  {
    var r := CreateAsWritten(s, products, input, created, saved, validate, faults).value;
    CountAfterInsert(s.orders, r.id, r.store.orders[r.id], saved.day);
  }

  /** Creates an order with one clock reading: the order's creation time and
      the day its id is numbered by are both `now`. Otherwise as
      `CreateAsWritten`. */
  function Create(s: OrderStore, products: ProductRepository.ProductStore, input: CreateOrderInput,
                  now: Instant, validate: CreateOrderInput -> bool, faults: set<Stmt>): (r: Result<Saved>)
    ensures |input.orderItems| == 0 ==> r == Failure(EmptyOrderItems)
    ensures |input.orderItems| > 0 && !validate(input) ==> r == Failure(ValidationFailed)
    ensures |input.orderItems| > 0 && validate(input) && !AllPriced(products, input.orderItems) ==>
              r == Failure(RecordNotFound)
    ensures r.Success? ==>
              && |input.orderItems| > 0 && validate(input) && AllPriced(products, input.orderItems)
              && r.value.id == NextOrderId(s, now.day) && r.value.id !in s.orders
              && r.value.id in r.value.store.orders
              && var row := r.value.store.orders[r.value.id];
                 row.userId == input.userId && row.Live() && row.createdAt == now
                 && row.totalAmount == InputTotal(products, input.orderItems)
    ensures r.Success? <==>
              && |input.orderItems| > 0 && validate(input) && AllPriced(products, input.orderItems)
              && Begin !in faults && CountToday !in faults && InsertOrder !in faults && Commit !in faults
              && NextOrderId(s, now.day) !in s.orders
              && (forall j :: 0 <= j < |input.orderItems| ==> SaveItem(j) !in faults)
    ensures (r.Failure? && r.error != DuplicateOrder && |input.orderItems| > 0 && validate(input)
             && AllPriced(products, input.orderItems)) ==> r.error.StatementFailed? && r.error.stmt in faults
  {
    CreateAsWritten(s, products, input, now, now, validate, faults)
  }

  /** With one clock reading, creating an order keeps the numbering rule and
      the link of items to orders. */
  lemma CreateKeepsInvariants(s: OrderStore, products: ProductRepository.ProductStore, input: CreateOrderInput,
                              now: Instant, validate: CreateOrderInput -> bool, faults: set<Stmt>)
    requires WellNumbered(s.orders) && ItemsBelongToOrders(s)
    requires Create(s, products, input, now, validate, faults).Success?
    ensures var t := Create(s, products, input, now, validate, faults).value.store;
            WellNumbered(t.orders) && ItemsBelongToOrders(t)
  {
    var order := BuildOrder(products, input, now).value;
    SaveOrderKeepsInvariants(s, order, now, faults);
  }

  /** With one clock reading, a create on a store numbered by the rules never
      reports a duplicate order. */
  lemma CreateNeverDuplicate(s: OrderStore, products: ProductRepository.ProductStore, input: CreateOrderInput,
                             now: Instant, validate: CreateOrderInput -> bool, faults: set<Stmt>)
    requires WellNumbered(s.orders)
    ensures Create(s, products, input, now, validate, faults) != Failure(DuplicateOrder)
  {
    if |input.orderItems| > 0 && validate(input) && AllPriced(products, input.orderItems) {
      NoDuplicateInSequence(s, BuildOrder(products, input, now).value, now, faults);
    }
  }

  /** Sum of the input quantities for `productId`. */
  function InputQty(items: seq<CreateOrderItem>, productId: int): int {
    if items == [] then 0
    else (if items[0].productId == productId then items[0].quantity else 0) + InputQty(items[1..], productId)
  }

  predicate InputMentions(items: seq<CreateOrderItem>, productId: int) {
    exists i :: 0 <= i < |items| && items[i].productId == productId
  }

  lemma {:induction false} NewItemsSummary(products: ProductRepository.ProductStore, items: seq<CreateOrderItem>,
                                          now: Instant, productId: int)
    requires AllPriced(products, items)
    ensures var lines := NewItems(products, items, now);
            && SumQty(lines, productId) == InputQty(items, productId)
            && (Mentions(lines, productId) <==> InputMentions(items, productId))
            && (InputMentions(items, productId) ==>
                  ProductRepository.GetPriceByID(products, productId).Success?
                  && FirstPrice(lines, productId) == Some(UnitPrice(products, productId)))
  {
    var lines := NewItems(products, items, now);
    if items != [] {
      NewItemsSummary(products, items[1..], now, productId);
      assert lines[1..] == NewItems(products, items[1..], now);
      if InputMentions(items, productId) && items[0].productId != productId {
        var i :| 0 <= i < |items| && items[i].productId == productId;
        assert items[1..][i - 1].productId == productId;
      }
      if Mentions(lines, productId) && items[0].productId != productId {
        var i :| 0 <= i < |lines| && lines[i].productId == productId;
        assert lines[1..][i - 1].productId == productId;
      }
    }
  }

  /** What a created order looks like in the store: one row per product it
      mentions, holding the summed quantity at the product's price when the
      order was made. */
  lemma CreateStoresOneLinePerProduct(s: OrderStore, products: ProductRepository.ProductStore,
                                      input: CreateOrderInput, now: Instant,
                                      validate: CreateOrderInput -> bool, faults: set<Stmt>, productId: int)
    requires ItemsBelongToOrders(s)
    requires Create(s, products, input, now, validate, faults).Success?
    ensures var saved := Create(s, products, input, now, validate, faults).value;
            var rows := saved.store.items;
            && AtMostOneRow(rows, saved.id, productId)
            && (HasRow(rows, saved.id, productId) <==> InputMentions(input.orderItems, productId))
            && Qty(rows, saved.id, productId) == InputQty(input.orderItems, productId)
            && (InputMentions(input.orderItems, productId) ==>
                  PriceOf(rows, saved.id, productId) == Some(UnitPrice(products, productId)))
  {
    var order := BuildOrder(products, input, now).value;
    SaveOrderMergesByProduct(s, order, now, faults, productId);
    NewItemsSummary(products, input.orderItems, now, productId);
  }

  /** A created order can be read back by its id, with the user and total it
      was created with. */
  lemma CreateThenFindById(s: OrderStore, products: ProductRepository.ProductStore,
                           input: CreateOrderInput, now: Instant,
                           validate: CreateOrderInput -> bool, faults: set<Stmt>)
    requires Create(s, products, input, now, validate, faults).Success?
    ensures var saved := Create(s, products, input, now, validate, faults).value;
            var found := FindById(saved.store, saved.id);
            && found.Success?
            && found.value.userId == input.userId
            && found.value.totalAmount == InputTotal(products, input.orderItems)
            && (forall x :: x in found.value.orderItems <==> x in saved.store.items && x.orderId == saved.id)
  {
    var saved := Create(s, products, input, now, validate, faults).value;
    assert saved.id != "" by {
      assert saved.id == OrderId(now.day, CountOnDay(s.orders, now.day) + 1);
      assert saved.id[..4] == "ORD-";
    }
  }

  // ---------------------------------------------------------------------
  // Soft delete
  // ---------------------------------------------------------------------

  /** Deletes an order that can be found; the lookup's error otherwise. The
      already-deleted branch of the source cannot be reached, because the
      lookup hides deleted orders. */
  function Delete(s: OrderStore, id: string, now: Instant): (r: Result<OrderStore>)
    ensures r.Success? <==> id in s.orders && s.orders[id].Live()
    ensures r.Failure? ==> r.error == OrderNotFound
    ensures r.Success? ==> r.value == OrderRepository.Delete(s, id, now)
    ensures r.Success? ==> !r.value.orders[id].Live()
  {
    match OrderRepository.FindById(s, id)
    case Failure(e) => Failure(e)
    case Success(o) =>
      if !o.Live() then Failure(OrderAlreadyDeleted)
      else Success(OrderRepository.Delete(s, id, now))
  }

  /** Deleting the same order twice: the second attempt reports "order not
      found", not "order already deleted". */
  lemma DeleteTwice(s: OrderStore, id: string, t1: Instant, t2: Instant)
    requires Delete(s, id, t1).Success?
    ensures Delete(Delete(s, id, t1).value, id, t2) == Failure(OrderNotFound)
  {
  }

  /** A deleted order is no longer returned by either read. */
  lemma DeleteHides(s: OrderStore, id: string, now: Instant, userId: int)
    requires Delete(s, id, now).Success?
    ensures var t := Delete(s, id, now).value;
            && FindById(t, id).Failure?
            && id in t.orders
            && Preload(t, id) !in OrderRepository.FindAll(t, userId)
            && (userId != 0 ==> FindAll(t, userId).Success? && Preload(t, id) !in FindAll(t, userId).value)
  {
  }

  /** A created order is listed among its user's orders, unless the user is 0. */
  lemma CreateThenListed(s: OrderStore, products: ProductRepository.ProductStore,
                         input: CreateOrderInput, now: Instant,
                         validate: CreateOrderInput -> bool, faults: set<Stmt>)
    requires Create(s, products, input, now, validate, faults).Success?
    ensures var saved := Create(s, products, input, now, validate, faults).value;
            && (input.userId == 0 ==> FindAll(saved.store, input.userId) == Failure(InvalidUserId))
            && (input.userId != 0 ==>
                  FindAll(saved.store, input.userId).Success?
                  && Preload(saved.store, saved.id) in FindAll(saved.store, input.userId).value)
  {
  }
}

=== FILE: product_repository.dfy ===
/** The product store: the `products` table with soft deletion, paged
    listing, the category name joined in on reads, and the unfiltered price
    lookup the order use-case relies on. */
module ProductRepository {
  import opened Base
  import opened Model
  import CategoryRepository

  /** Rows in insertion order, and the value the id sequence hands out next. */
  datatype ProductStore = ProductStore(rows: seq<Product>, nextId: int)

  predicate UniqueIds(rows: seq<Product>) {
    forall i, j :: 0 <= i < |rows| && 0 <= j < |rows| && i != j ==> rows[i].id != rows[j].id
  }

  function LiveWithId(id: int): Product -> bool {
    (p: Product) => p.id == id && p.Live()
  }

  /** A product as read back: its category's name joined in. */
  function Joined(p: Product, cats: CategoryRepository.CategoryStore): (r: Product)
    ensures r.(categoryName := p.categoryName) == p
    ensures r.id == p.id && r.Live() == p.Live()
  {
    p.(categoryName := CategoryRepository.JoinedName(cats, p.categoryId))
  }

  /** The rows `WHERE products.deleted_at IS NULL` selects. */
  function LiveRows(s: ProductStore): (r: seq<Product>)
    ensures forall p :: p in r <==> p in s.rows && p.Live()
    ensures forall i :: 0 <= i < |r| ==> r[i].Live() && r[i] in s.rows
  {
    Filter(s.rows, (p: Product) => p.Live())
  }

  /** `(page - 1) * limit` in 64-bit arithmetic: both the subtraction and
      the product wrap around. */
  function Offset(f: FindAllParam): (r: Int64)
    ensures 1 <= f.page && 0 <= f.limit && (f.page - 1) * f.limit < 0x8000_0000_0000_0000 ==> r == (f.page - 1) * f.limit
  {
    Wrap64(Wrap64(f.page - 1) * f.limit)
  }

  /** Where the window over `n` rows starts: nowhere to skip without a limit;
      a negative offset is not emitted, and an offset past the end leaves
      nothing. */
  function Start(f: FindAllParam, n: nat): (r: nat)
    ensures r <= n
  {
    if f.limit <= 0 || Offset(f) < 0 then 0 else if Offset(f) > n then n else Offset(f)
  }

  /** How many rows the window over `n` rows holds. */
  function PageSize(f: FindAllParam, n: nat): (r: nat)
    ensures Start(f, n) + r <= n
  {
    if f.limit <= 0 then n
    else if Start(f, n) + f.limit > n then n - Start(f, n)
    else f.limit
  }

  /** `LIMIT limit OFFSET (page - 1) * limit` over `xs` when `limit` is
      positive; all of `xs` otherwise. */
  function Window<T>(xs: seq<T>, f: FindAllParam): (r: seq<T>)
    ensures |r| == PageSize(f, |xs|)
    ensures forall i :: 0 <= i < |r| ==> r[i] == xs[Start(f, |xs|) + i]
  {
    xs[Start(f, |xs|)..Start(f, |xs|) + PageSize(f, |xs|)]
  }

  function JoinAll(xs: seq<Product>, cats: CategoryRepository.CategoryStore): (r: seq<Product>)
    ensures |r| == |xs|
    ensures forall i :: 0 <= i < |r| ==> r[i] == Joined(xs[i], cats)
  {
    seq(|xs|, i requires 0 <= i < |xs| => Joined(xs[i], cats))
  }

  /** The live products, paged when `limit` is positive. */
  function FindAll(s: ProductStore, cats: CategoryRepository.CategoryStore, f: FindAllParam): (r: seq<Product>)
    ensures forall i :: 0 <= i < |r| ==> r[i].Live()
    ensures f.limit > 0 ==> |r| <= f.limit
    ensures f.limit <= 0 ==> |r| == |LiveRows(s)|
    ensures |r| == PageSize(f, |LiveRows(s)|)
    ensures forall i :: 0 <= i < |r| ==> r[i] == Joined(LiveRows(s)[Start(f, |LiveRows(s)|) + i], cats)
  {
    JoinAll(Window(LiveRows(s), f), cats)
  }

  /** Paging with a positive limit shows every live product exactly where
      its position says: position j is entry j % limit of page j / limit + 1. */
  lemma EveryLiveProductOnItsPage(s: ProductStore, cats: CategoryRepository.CategoryStore, limit: Int64, j: nat)
    requires limit > 0 && j < |LiveRows(s)| && j < 0x7FFF_FFFF_FFFF_FFFF
    ensures var page := FindAll(s, cats, FindAllParam(limit, j / limit + 1));
            j % limit < |page| && page[j % limit] == Joined(LiveRows(s)[j], cats)
  {
    var n := |LiveRows(s)|;
    var q := j / limit;
    var m := j % limit;
    DivisionSplit(j, limit);
    var f := FindAllParam(limit, q + 1);
    assert Wrap64(f.page - 1) == q;
    assert Offset(f) == q * limit;
    assert Start(f, n) == q * limit;
    assert m < PageSize(f, n);
  }

  /** The sign of a product with a non-negative factor. */
  lemma MulSign(a: int, b: int)
    requires a >= 0
    ensures b >= 0 ==> a * b >= 0
    ensures b <= 0 ==> a * b <= 0
  {
  }

  /** `j` splits into `j / d` whole blocks of `d` and a remainder below `d`. */
  lemma DivisionSplit(j: nat, d: int)
    requires d > 0
    ensures j == (j / d) * d + j % d && 0 <= j % d < d
    ensures 0 <= j / d <= j && 0 <= (j / d) * d <= j
  {
    var q := j / d;
    var r := j % d;
    assert j == d * q + r && 0 <= r < d;
    MulSign(d, q + 1);
    assert d * (q + 1) == d * q + d;
    assert q >= 0;
    MulSign(q, d - 1);
    assert q * (d - 1) == q * d - q;
    assert q * d == d * q;
  }

  /** A page number so large that `(page - 1) * limit` overflows to a
      negative offset shows the first page, not an empty one. */
  lemma OverflowingPageShowsFirstPage(s: ProductStore, cats: CategoryRepository.CategoryStore)
    ensures FindAll(s, cats, FindAllParam(2, 0x4000_0000_0000_0001)) == FindAll(s, cats, FindAllParam(2, 1))
    ensures Offset(FindAllParam(2, 0x4000_0000_0000_0001)) == -0x8000_0000_0000_0000
  {
  }

  /** `WHERE products.id = ? AND products.deleted_at IS NULL`, then `First`. */
  function FindById(s: ProductStore, cats: CategoryRepository.CategoryStore, id: int): (r: Result<Product>)
    ensures r.Failure? <==> forall i :: 0 <= i < |s.rows| ==> !(s.rows[i].id == id && s.rows[i].Live())
    ensures r.Failure? ==> r.error == ProductNotFound
    ensures r.Success? ==> r.value.id == id && r.value.Live()
    ensures r.Success? ==> exists i :: 0 <= i < |s.rows| && r.value == Joined(s.rows[i], cats)
  {
    match FirstIndex(s.rows, LiveWithId(id))
    case Some(i) => Success(Joined(s.rows[i], cats))
    case None => Failure(ProductNotFound)
  }

  /** Inserts a row without its joined category name: a zero id takes the
      next value of the id sequence, any other id is used as given; an id
      already present violates the primary key. */
  function Create(s: ProductStore, p: Product): (r: Result<ProductStore>)
    ensures var id := if p.id == 0 then s.nextId else p.id;
            && (r.Success? <==> forall i :: 0 <= i < |s.rows| ==> s.rows[i].id != id)
            && (r.Failure? ==> r.error == DuplicateKey)
            && (r.Success? ==> r.value.rows == s.rows + [p.(id := id, categoryName := "")])
    ensures UniqueIds(s.rows) && r.Success? ==> UniqueIds(r.value.rows)
  {
    var id := if p.id == 0 then s.nextId else p.id;
    if exists i :: 0 <= i < |s.rows| && s.rows[i].id == id then Failure(DuplicateKey)
    else Success(ProductStore(s.rows + [p.(id := id, categoryName := "")], if p.id == 0 then s.nextId + 1 else s.nextId))
  }

  /** The columns `Omit("CategoryName").Updates(p)` writes into a row. */
  function Overwrite(row: Product, p: Product): Product {
    row.(name := p.name, description := p.description, price := p.price, stock := p.stock,
         categoryId := p.categoryId, imageUrl := p.imageUrl,
         createdAt := p.createdAt, updatedAt := p.updatedAt)
  }

  /** `UPDATE ... WHERE id = ? AND deleted_at IS NULL`: only the live row(s)
      with `p`'s id change; every other row is left as it was. */
  function Update(s: ProductStore, p: Product): (r: ProductStore)
    ensures r.nextId == s.nextId && |r.rows| == |s.rows|
    ensures forall i :: 0 <= i < |s.rows| && !(s.rows[i].id == p.id && s.rows[i].Live()) ==> r.rows[i] == s.rows[i]
    ensures forall i :: 0 <= i < |s.rows| && s.rows[i].id == p.id && s.rows[i].Live() ==>
              && r.rows[i].id == p.id && r.rows[i].Live()
              && r.rows[i].categoryName == s.rows[i].categoryName
              && r.rows[i].(categoryName := p.categoryName, deletedAt := p.deletedAt) == p
  {
    s.(rows := seq(|s.rows|, i requires 0 <= i < |s.rows| =>
                     if s.rows[i].id == p.id && s.rows[i].Live() then Overwrite(s.rows[i], p) else s.rows[i]))
  }

  /** `UPDATE ... SET deleted_at = NOW() WHERE id = ?`, which the ORM extends
      with `updated_at = now`, whatever the rows' state. */
  function Delete(s: ProductStore, id: int, now: Instant): (r: ProductStore)
    ensures r.nextId == s.nextId && |r.rows| == |s.rows|
    ensures forall i :: 0 <= i < |s.rows| && s.rows[i].id != id ==> r.rows[i] == s.rows[i]
    ensures forall i :: 0 <= i < |s.rows| && s.rows[i].id == id ==>
              r.rows[i] == s.rows[i].(deletedAt := Some(now), updatedAt := now)
  {
    s.(rows := seq(|s.rows|, i requires 0 <= i < |s.rows| =>
                     if s.rows[i].id == id then s.rows[i].(deletedAt := Some(now), updatedAt := now) else s.rows[i]))
  }

  /** `SELECT price WHERE id = ?` with no `deleted_at` condition. */
  function GetPriceByID(s: ProductStore, id: int): (r: Result<int>)
    ensures r.Failure? <==> forall i :: 0 <= i < |s.rows| ==> s.rows[i].id != id
    ensures r.Failure? ==> r.error == RecordNotFound
    ensures r.Success? ==> exists i :: 0 <= i < |s.rows| && s.rows[i].id == id && s.rows[i].price == r.value
  {
    match FirstIndex(s.rows, (p: Product) => p.id == id)
    case Some(i) => Success(s.rows[i].price)
    case None => Failure(RecordNotFound)
  }

  /** Soft deletion does not change any price lookup: a deleted product
      still prices new orders. */
  lemma PriceSurvivesDelete(s: ProductStore, id: int, now: Instant, productId: int)
    ensures GetPriceByID(Delete(s, id, now), productId) == GetPriceByID(s, productId)
  {
    var t := Delete(s, id, now);
    assert forall i :: 0 <= i < |s.rows| ==> t.rows[i].id == s.rows[i].id && t.rows[i].price == s.rows[i].price;
    match FirstIndex(s.rows, (p: Product) => p.id == productId)
    case Some(i) =>
      assert FirstIndex(t.rows, (p: Product) => p.id == productId) == Some(i);
    case None =>
  }

  /** After a delete the product is gone from the lookup. */
  lemma DeleteHidesFromFind(s: ProductStore, cats: CategoryRepository.CategoryStore, id: int, now: Instant)
    ensures FindById(Delete(s, id, now), cats, id) == Failure(ProductNotFound)
  {
  }

  /** After a delete the product is gone from every page of the listing. */
  lemma DeleteHidesFromFindAll(s: ProductStore, cats: CategoryRepository.CategoryStore, id: int, now: Instant,
                               f: FindAllParam)
    ensures forall p :: p in FindAll(Delete(s, id, now), cats, f) ==> p.id != id
  {
  }

  /** An update of a missing or soft-deleted product writes nothing. */
  lemma UpdateOfMissingIsNoOp(s: ProductStore, cats: CategoryRepository.CategoryStore, p: Product)
    requires FindById(s, cats, p.id).Failure?
    ensures Update(s, p) == s
  {
  }

  /** After an update of a live product, the lookup shows the written columns. */
  lemma UpdateThenFind(s: ProductStore, cats: CategoryRepository.CategoryStore, p: Product)
    requires FindById(s, cats, p.id).Success?
    ensures var r := FindById(Update(s, p), cats, p.id);
            && r.Success?
            && r.value.(categoryName := p.categoryName, deletedAt := p.deletedAt) == p
  {
  }
}

=== FILE: product_usecase.dfy ===
/** The product use-case: creation behind the validator and the
    product-data rule, update of the editable columns of a live product, and
    the guarded soft delete. */
module ProductUsecase {
  import opened Base
  import opened Model
  import opened ProductRepository
  import CategoryRepository

  /** The data rule `Create` applies after the validator: a name, a positive
      price, a stock that is not negative and an image. */
  predicate ValidProductData(input: CreateProductInput) {
    input.name != "" && input.price > 0 && input.stock >= 0 && input.imageUrl != ""
  }

  /** `p` holds the editable columns of a create input. */
  predicate CarriesCreate(p: Product, input: CreateProductInput) {
    p.name == input.name && p.description == input.description && p.price == input.price
    && p.stock == input.stock && p.categoryId == input.categoryId && p.imageUrl == input.imageUrl
  }

  /** `p` holds the editable columns of an update input. */
  predicate CarriesUpdate(p: Product, input: UpdateProductInput) {
    p.name == input.name && p.description == input.description && p.price == input.price
    && p.stock == input.stock && p.categoryId == input.categoryId && p.imageUrl == input.imageUrl
  }

  /** Creates a product: a rejected input or bad product data writes nothing;
      otherwise one row is appended, stamped `now`, and the product is
      returned as built, that is with id 0. */
  function Create(s: ProductStore, input: CreateProductInput, now: Instant,
                  validate: CreateProductInput -> bool): (r: Result<(ProductStore, Product)>)
    ensures !validate(input) ==> r == Failure(ValidationFailed)
    ensures validate(input) && !ValidProductData(input) ==> r == Failure(InvalidProductData)
    ensures validate(input) && ValidProductData(input) ==>
              (r.Success? <==> forall i :: 0 <= i < |s.rows| ==> s.rows[i].id != s.nextId)
    ensures r.Failure? && validate(input) && ValidProductData(input) ==> r.error == DuplicateKey
    ensures r.Success? ==>
              var (t, p) := r.value;
              && p.id == 0 && CarriesCreate(p, input)
              && p.createdAt == now && p.updatedAt == now && p.Live()
              && |t.rows| == |s.rows| + 1 && t.rows[..|s.rows|] == s.rows
              && t.rows[|s.rows|] == p.(id := s.nextId)
  {
    if !validate(input) then Failure(ValidationFailed)
    else if !ValidProductData(input) then Failure(InvalidProductData)
    else
      var p := Product(0, input.name, input.description, input.price, input.stock, input.categoryId, "",
                       input.imageUrl, now, now, None);
      var t :- ProductRepository.Create(s, p);
      Success((t, p))
  }

  /** A created product is found under the id the sequence gave it, with the
      columns it was created with. */
  lemma CreateThenFind(s: ProductStore, cats: CategoryRepository.CategoryStore, input: CreateProductInput,
                       now: Instant, validate: CreateProductInput -> bool)
    requires Create(s, input, now, validate).Success?
    ensures var (t, _) := Create(s, input, now, validate).value;
            var found := FindById(t, cats, s.nextId);
            found.Success? && CarriesCreate(found.value, input) && found.value.createdAt == now
  {
  }

  /** Edits a live product: a rejected input writes nothing, a missing or
      deleted product is "product not found"; otherwise the six editable
      columns and `updatedAt` change and everything else is kept. */
  function Update(s: ProductStore, cats: CategoryRepository.CategoryStore, id: int, input: UpdateProductInput,
                  now: Instant, validate: UpdateProductInput -> bool): (r: Result<(ProductStore, Product)>)
    ensures !validate(input) ==> r == Failure(ValidationFailed)
    ensures validate(input) ==> (r.Success? <==> FindById(s, cats, id).Success?)
    ensures r.Failure? && validate(input) ==> r.error == ProductNotFound
    ensures r.Success? ==>
              var (t, p) := r.value;
              var before := FindById(s, cats, id).value;
              && FindById(s, cats, id).Success?
              && CarriesUpdate(p, input) && p.updatedAt == now
              && p.id == id && p.createdAt == before.createdAt && p.Live()
              && p.categoryName == before.categoryName
              && t.nextId == s.nextId && |t.rows| == |s.rows|
              && (forall i :: 0 <= i < |s.rows| && s.rows[i].id != id ==> t.rows[i] == s.rows[i])
    ensures r.Success? ==> r.value.0 == ProductRepository.Update(s, r.value.1)
    ensures r.Success? ==>
              forall i :: 0 <= i < |s.rows| && s.rows[i].id == id && s.rows[i].Live() ==>
                var row := r.value.0.rows[i];
                && CarriesUpdate(row, input) && row.updatedAt == now && row.id == id && row.Live()
                && row.categoryName == s.rows[i].categoryName
                && (UniqueIds(s.rows) ==> row.createdAt == s.rows[i].createdAt)
  {
    if !validate(input) then Failure(ValidationFailed)
    else
      var existing :- FindById(s, cats, id);
      var edited := existing.(name := input.name, description := input.description, price := input.price,
                              stock := input.stock, categoryId := input.categoryId, imageUrl := input.imageUrl,
                              updatedAt := now);
      Success((ProductRepository.Update(s, edited), edited))
  }

  /** After an update, the lookup shows the new columns. */
  lemma UpdateThenFind(s: ProductStore, cats: CategoryRepository.CategoryStore, id: int, input: UpdateProductInput,
                       now: Instant, validate: UpdateProductInput -> bool)
    requires Update(s, cats, id, input, now, validate).Success?
    ensures var (t, _) := Update(s, cats, id, input, now, validate).value;
            var found := FindById(t, cats, id);
            found.Success? && CarriesUpdate(found.value, input) && found.value.updatedAt == now
  {
    var (t, p) := Update(s, cats, id, input, now, validate).value;
    ProductRepository.UpdateThenFind(s, cats, p);
  }

  /** Soft-deletes a live product; "product not found" otherwise. The
      already-deleted branch of the source cannot be reached, because the
      lookup hides deleted products. */
  function Delete(s: ProductStore, cats: CategoryRepository.CategoryStore, id: int, now: Instant): (r: Result<ProductStore>)
    ensures r.Success? <==> exists i :: 0 <= i < |s.rows| && s.rows[i].id == id && s.rows[i].Live()
    ensures r.Failure? ==> r.error == ProductNotFound
    ensures r.Success? ==> r.value == ProductRepository.Delete(s, id, now)
  {
    var p :- FindById(s, cats, id);
    if !p.Live() then Failure(ProductAlreadyDeleted)
    else Success(ProductRepository.Delete(s, id, now))
  }

  /** Deleting the same product twice: the second attempt reports "product
      not found", not "product already deleted". */
  lemma DeleteTwice(s: ProductStore, cats: CategoryRepository.CategoryStore, id: int, t1: Instant, t2: Instant)
    requires Delete(s, cats, id, t1).Success?
    ensures Delete(Delete(s, cats, id, t1).value, cats, id, t2) == Failure(ProductNotFound)
  {
    ProductRepository.DeleteHidesFromFind(s, cats, id, t1);
  }

  /** A delete leaves the price of every product as it was, so orders can
      still be placed for a deleted product. */
  lemma DeletedProductStillPriced(s: ProductStore, cats: CategoryRepository.CategoryStore, id: int, now: Instant)
    requires Delete(s, cats, id, now).Success?
    ensures var t := Delete(s, cats, id, now).value;
            FindById(t, cats, id).Failure? && GetPriceByID(t, id).Success?
  {
    var t := Delete(s, cats, id, now).value;
    PriceSurvivesDelete(s, id, now, id);
    ProductRepository.DeleteHidesFromFind(s, cats, id, now);
  }
}
